=== FILE: README.md ===
# Reiya nodes: a verified model of the node logic

This project models three pieces of logic from a small set of custom nodes for a
node-graph image editor. Each piece is modelled as pure functions over immutable data.

1. **Image-slot synchroniser** of the image-stitch node's front-end (`PortSync`).
   - It runs when the `num_images` widget changes and when a saved graph is loaded.
   - It brings the node's `image_*` inputs in line with the widget's value.
   - Surplus slots are found by exact name, highest number first. A slot that carries a link is disconnected first, then removed.
   - Missing slots are appended with type `IMAGE`.
   - The node is resized: it keeps its width and takes the height the host computes.
   - The two code paths (widget callback and graph load) are modelled once as a function and once as a method made of the loops. The method is proved to give the same result as the function.
2. **Name-binding getter node** (`GetNode`, `NodeColors`).
   - The getter selects a name. The first setter node in graph order that carries that name decides the getter's output type and title.
   - When the type changes, outgoing links that cannot carry the new type are removed from the graph.
   - The name widget offers the sorted names of all setter nodes.
   - Tracing an input goes through to the setter's input link.
   - A table maps types to node colours.
3. **Image stitching at the level of tensor shapes** (`ImageStitch`).
   - The node declares its inputs and collects the provided images.
   - With fewer than two images, it returns the first one unchanged.
   - Otherwise it pads every image to the largest batch, optionally rescales every image to the first one's height, and pads every image to the most channels.
   - Finally it concatenates the images along the width.

Shared modules:
- `Wrappers`: `Option` and `Result`.
- `Seqs`: first-match search.
- `Text`: prefix test, decimal rendering with its parse round trip, comma splitting and joining.
- `Sorting`: lexicographic order, insertion sort, and uniqueness of a sorted arrangement.
- `Slots`: the slot names `image_<n>`, which the JavaScript front-end and the Python back-end both build.

Host effects are recorded rather than performed:
- Port teardown is a list of `DisconnectInput`/`RemoveInput` calls, in order.
- Link removal updates the link map and the output's id list.
- The host's size computation, the auto-colour setting and the rescaled width are parameters.

Two behaviours of the code are worth knowing before reading the table.
- **Second runs.** A second synchronisation with the same target is not always a no-op. The code counts slots by the prefix `image_` but removes them by exact name. With slot names that are not `image_1..image_k`, a second run can still remove slots. The model proves idempotence only when the names are gap-free or the first run did not shrink (`PortSync.Idempotent`). `PortSync.IdempotenceNeedsNumbering` exhibits the failing case.
- **Gray fallback.** For a type the colour table does not list, the code assigns the whole gray palette entry to both colours. It does not use that entry's two colours, as the table's `DEFAULT` row does. `GetNode.OnRename` follows the code (`NodeColors.ColorsAsWritten`). The finding below records the discrepancy, and `NodeColors.ColorsFor` is the corrected assignment.

## Model

| member | source | states |
|---|---|---|
| Seqs.FindFirst | web/js/reiGetNode.js:141 | The result is the index of the first element satisfying the predicate; no element before it satisfies the predicate; absent means no element satisfies it |
| Slots.ImageName | web/js/rmImageStitch.js:45 | A slot name is `image_` followed by the decimal rendering of its number |
| Slots.ImageNameInjective | web/js/rmImageStitch.js:32 | Distinct slot numbers give distinct names, so an exact-name lookup singles out one slot number |
| Text.Split | web/js/reiGetNode.js:126 | Splitting at a separator yields at least one piece, and no piece contains the separator |
| Text.JoinSplit | web/js/reiGetNode.js:126 | Joining the pieces of a split with the separator gives back the original string |
| Text.SplitJoin | web/js/reiGetNode.js:126 | Splitting a separator-joined list of separator-free pieces gives back the list, empty pieces included |
| Sorting.Sort | web/js/reiGetNode.js:75 | The result is sorted and is a permutation of the input |
| Sorting.SortedUnique | web/js/reiGetNode.js:75 | Two sorted arrangements of the same multiset are equal, so the sorted list is fully determined |
| PortSync.ImagePortsCounted | web/js/rmImageStitch.js:17-25 | Every input is either counted as an image slot or is among the other inputs, so the count plus the other inputs is the number of inputs. The counted names all start with `image_`, and every input whose name starts with `image_` is counted |
| PortSync.FindInput | web/js/rmImageStitch.js:32 | Finds the first input whose name equals the given name exactly; absent means no input has that name |
| PortSync.UpdateInputs | web/js/rmImageStitch.js:13-48 | The image-slot count alone picks the branch. At the target count, the inputs are unchanged and no call is issued. Below it, the fresh slots from count+1 to the target are appended after all existing inputs, which keep their positions and links. Above it, only image slots are removed, every slot is either kept or reported removed, and each linked slot is disconnected just before its removal. The removed slots are, in removal order, the first input named `image_i` in the original inputs for each `i` from the count down to target+1, skipping numbers no input carries. Inputs that are not image slots keep their order in every case |
| PortSync.RemoveStep | web/js/rmImageStitch.js:32-39 | One pass for number `i` changes nothing when no input is named `image_i`. Otherwise, with `j` the index of the first input named `image_i`, the inputs become those before `j` followed by those after it. The earlier calls stay as a prefix, followed by `disconnectInput(j)` when that input is linked and then `removeInput(j)` for that input |
| PortSync.RemoveStepReplays | web/js/rmImageStitch.js:32-39 | The calls one pass issues, carried out by the host in order, turn the inputs before the pass into the inputs after it |
| PortSync.ShrinkReplays | web/js/rmImageStitch.js:30-41 | The calls the whole removal loop issues, carried out by the host in order, turn the inputs before the loop into the inputs after it |
| PortSync.UpdateInputsReplays | web/js/rmImageStitch.js:30-47 | The host, carrying out the recorded calls one by one on the original inputs, ends with exactly the rewritten inputs when shrinking or at the target. Every disconnect finds its link on the slot it names, and every removal finds the recorded port, by then unlinked, at the index it names. Growing issues no teardown calls and keeps the original inputs as a prefix |
| PortSync.Shrink | web/js/rmImageStitch.js:30-41 | The removal loop only adds calls after the earlier ones, never adds inputs, and removes at most one input per number from `i` down to target+1 |
| PortSync.Grow | web/js/rmImageStitch.js:43-47 | The adding loop keeps the existing inputs as a prefix and adds one slot per number from `i` up to the target |
| PortSync.StepRemovals | web/js/rmImageStitch.js:32-39 | One pass moves the slot it takes, if any, from the slots still to be taken to the slots already removed |
| PortSync.ShrinkRemovals | web/js/rmImageStitch.js:30-41 | The removal loop removes, highest number first, the first input named `image_i` for each number down to target+1. Each is looked up in the inputs as they stood before the loop, since earlier removals never disturb a lower number's first match |
| PortSync.ShrinkRemovesFromTop | web/js/rmImageStitch.js:30-41 | With gap-free slots `image_1..image_k` and a target below k, the removed slots are named `image_k`, `image_{k-1}`, ... down to `image_{target+1}` (never below `image_1`), in that order |
| PortSync.SyncNode | web/js/rmImageStitch.js:49-52 | After synchronising, the node keeps its width and takes the height of the size computed for the new inputs |
| PortSync.SyncNodeSettles | web/js/rmImageStitch.js:13-52 | For gap-free slots, or when the first run does not shrink, synchronising the synchronised node again with the same target leaves it as it is and issues no calls |
| PortSync.LoadedGraphNode | web/js/rmImageStitch.js:80-115 | The graph-load path, written as loops, leaves the node in the same state and issues the same calls as the widget path |
| PortSync.CountLoop | web/js/rmImageStitch.js:84-89 | The counting loop counts the inputs whose name starts with `image_` |
| PortSync.RemoveOne | web/js/rmImageStitch.js:94-100 | The body of the graph-load removal loop performs exactly one removal pass for its slot number |
| PortSync.ShrinkLoop | web/js/rmImageStitch.js:92-102 | The removal loop from the current count down to target+1 issues exactly the calls of the removal rewrite |
| PortSync.GrowLoop | web/js/rmImageStitch.js:104-108 | The adding loop appends exactly the slots of the growth rewrite |
| PortSync.RemoveStepKeeps | web/js/rmImageStitch.js:32-39 | One removal pass keeps the other inputs and their order, accounts for every slot, removes only image slots, and disconnects a linked slot immediately before removing it |
| PortSync.ShrinkPreserves | web/js/rmImageStitch.js:30-41 | The whole removal loop keeps those guarantees |
| PortSync.GrowAppends | web/js/rmImageStitch.js:43-47 | The adding loop equals appending slots numbered count+1 to target at the end |
| PortSync.FreshNames | web/js/rmImageStitch.js:44-46 | Appended slots are image slots named in sequence, and none is anything else |
| PortSync.RemoveNumberedLast | web/js/rmImageStitch.js:32-38 | When the image slots are `image_1..image_i`, `image_i` is found, and removing it leaves `image_1..image_{i-1}` |
| PortSync.ShrinkConverges | web/js/rmImageStitch.js:30-41 | Removal from gap-free slots `image_1..image_i` down to the target leaves `image_1..image_target` |
| PortSync.GrowConverges | web/js/rmImageStitch.js:43-47 | Growth continues the numbering after the existing image slots |
| PortSync.Converges | web/js/rmImageStitch.js:27-48 | When the image slots are `image_1..image_k`, one run leaves exactly `image_1..image_target`, and none for a negative target |
| PortSync.Idempotent | web/js/rmImageStitch.js:30-47 | For gap-free slots, or when the first run did not shrink, a second run with the same target changes nothing and issues no calls |
| PortSync.IdempotenceNeedsNumbering | web/js/rmImageStitch.js:17-41 | Three inputs all named `image_2` with target 1 lose one slot on the first run and another on the second |
| NodeColors.TableIsPaintable | web/js/reiGetNode.js:7-24 | Every listed type maps to single paintable colours |
| NodeColors.ColorsAsWritten | web/js/reiGetNode.js:25-32 | A listed type takes its table row. Any other type takes the whole gray palette entry for both colours, which is not a paintable pair |
| NodeColors.AsWrittenPaintableIffListed | web/js/reiGetNode.js:25-32 | As written, a node gets paintable colours exactly when its type is listed |
| NodeColors.AsWrittenStringIsUnpainted | web/js/reiGetNode.js:29-31 | As written, type `STRING` leaves the node with a palette object instead of a colour |
| NodeColors.ColorsFor | web/js/reiGetNode.js:6-33 | Colours are always paintable. They agree with the table for listed types and equal the gray pair of `DEFAULT` for all others |
| GetNode.FindSetter | web/js/reiGetNode.js:139-143 | The empty name never resolves. Otherwise the result is the first node in graph order of type `SetNode` carrying the name, and absent means no node does |
| GetNode.SetterNamesListed | web/js/reiGetNode.js:74-75 | A name is among the setter names exactly when some `SetNode` carries it |
| GetNode.ComboValues | web/js/reiGetNode.js:73-76 | The combo lists every setter name, duplicates kept, sorted, and has one entry per setter node |
| GetNode.ComboIsUnique | web/js/reiGetNode.js:75 | Any sorted arrangement of the setter names is the combo list |
| GetNode.ComboOffersResolvableNames | web/js/reiGetNode.js:73-76 | A non-empty name is offered by the combo exactly when it resolves to a setter |
| GetNode.Compatible | web/js/reiGetNode.js:126 | A link can carry a type when it is the wildcard link. A link whose type has no comma can carry exactly its own type, or any type if it is the wildcard. The filter removes the links that are not compatible |
| GetNode.CompatibleWithListedTypes | web/js/reiGetNode.js:126 | A link typed by a comma-joined list can carry a type exactly when it is the wildcard or lists that type |
| GetNode.Without | web/js/reiGetNode.js:128 | Dropping ids keeps exactly the ids outside the dropped set and never lengthens the list |
| GetNode.WithoutAppend | web/js/reiGetNode.js:128 | Dropping ids from two lists joined equals joining the two results, and a single id stays exactly when it is not dropped, so the kept ids keep their order |
| GetNode.RemoveLink | web/js/reiGetNode.js:128 | Removing a link the graph holds drops exactly that id from the link map and from the output's list, and leaves every other link as it was. Removing an absent id changes nothing |
| GetNode.RemoveAll | web/js/reiGetNode.js:127-129 | After removing a list of links one by one, none of them is in the graph, every other link is kept unchanged, and no link is added |
| GetNode.RemoveAllEffect | web/js/reiGetNode.js:127-129 | Removing links one by one equals removing at once those that are still in the graph, from the graph and from the output's list |
| GetNode.Doomed | web/js/reiGetNode.js:124-126 | The ids picked for removal are exactly the listed ids whose link is in the graph and cannot carry the output type |
| GetNode.ValidateLinks | web/js/reiGetNode.js:122-131 | With a wildcard output or no link list, nothing changes. Otherwise exactly the incompatible links the graph holds leave both the graph and the output's list; ids absent from the graph stay; the nodes, names, title and colours are untouched |
| GetNode.ValidatedIsHygienic | web/js/reiGetNode.js:123-129 | After validation every outgoing link the graph holds can carry the output type |
| GetNode.ValidateFixesExactlyHygienic | web/js/reiGetNode.js:122-131 | Validation changes nothing exactly when the links are already hygienic |
| GetNode.SetType | web/js/reiGetNode.js:133-137 | The output's name and type both become the given type, and the links end up hygienic. Setting the wildcard, or an output without a link list, leaves the graph and the link list alone. Otherwise exactly the listed links the graph holds that cannot carry the type leave the graph and the output's list. Every other link stays, and the list keeps its order |
| GetNode.OnRename | web/js/reiGetNode.js:100-114 | With a setter, the output's name and type become the setter's first input type, and the title becomes `GET-` and the name. With auto-colouring on, the colours are those the code assigns for that type, the whole gray entry for an unlisted type; otherwise they are kept. The outgoing links change as setting that type changes them: exactly the incompatible links the graph holds are removed, and all others stay. Without a setter, the output's name and type become the wildcard, its link list is kept, and the graph, title and colours are unchanged. A setter without inputs is an error. The links are hygienic whenever renaming succeeds |
| GetNode.SetName | web/js/reiGetNode.js:94-97 | Selecting a name keeps it selected, and selecting the empty name yields the wildcard |
| GetNode.GetInputLink | web/js/reiGetNode.js:154-164 | A warning naming the selected name is produced exactly when no setter resolves. With a setter, the result is the link plugged into the given slot of the first setter carrying the name, exactly when that setter has the slot. A missing slot is an error naming the slot |
| GetNode.NoSetterWarning | web/js/reiGetNode.js:161 | The warning is the fixed opening `No SetNode found for `, then the selected name verbatim, then ` (`, the getter's type and `)` |
| GetNode.NoSetterWarningInjective | web/js/reiGetNode.js:161 | Different names give different warnings, so the warning always tells which name failed to resolve |
| GetNode.RenamedGetterTracesItsType | web/js/reiGetNode.js:100-104 | After renaming onto a setter, tracing slot 0 follows the setter input whose type the output now carries |
| GetNode.RenamedColorsPaintableIffListed | web/js/reiGetNode.js:25-32 | With auto-colouring on, a rename onto a setter gives paintable colours exactly when the setter's input type is listed, which is also exactly when they agree with the corrected `NodeColors.ColorsFor` |
| GetNode.SeedScenario | web/js/reiGetNode.js:100-114 | A getter selecting `seed` becomes `GET-seed` of type `INT` while an `INT` setter is named `seed`, and becomes the wildcard once that setter is renamed `seed2` |
| ImageStitch.DeclareInputs | nodes.py:9-24 | `num_images` is required (default 3, min 2, max 10, step 1), as are `match_image_size` (default true) and `image_1`. The optional inputs are images named `image_2` to `image_10` |
| ImageStitch.DeclaredImageSlots | nodes.py:17-23 | The declared image inputs are exactly `image_1..image_10`, pairwise distinct |
| ImageStitch.CollectFrom | nodes.py:38-44 | Collection from a slot onwards takes provided images slot by slot and stops at the first missing slot or after `num_images` |
| ImageStitch.Collect | nodes.py:37-44 | The collected images are `image_1`, then the provided images of slots 2, 3, ... in order. They stop at the first missing slot, and there are never more than `num_images` of them |
| ImageStitch.Max | nodes.py:51 | The maximum is an element and bounds every element |
| ImageStitch.SumAppend | nodes.py:95 | The sum of two joined runs of numbers is the sum of their sums |
| ImageStitch.WidthsConcat | nodes.py:95 | The widths of two joined runs of images are the widths of the first run followed by those of the second |
| ImageStitch.WidthsAppend | nodes.py:95 | The total width of two runs of images is the sum of their totals |
| ImageStitch.PadBatch | nodes.py:55-58 | An image below the largest batch is padded up to it, other dimensions kept. An image at or above it is unchanged. An image with no frames cannot be padded |
| ImageStitch.PadBatches | nodes.py:53-59 | Batch padding fails exactly when some image has no frames while the largest batch has some; otherwise every image is padded |
| ImageStitch.PadBatchesToMax | nodes.py:50-59 | When every image has frames, every image ends at the largest batch. Height, width and channels are unchanged, and images already at the largest batch are unchanged |
| ImageStitch.PadChannel | nodes.py:87-91 | An image gets at least the target channel count and never loses channels, other dimensions kept |
| ImageStitch.PadChannels | nodes.py:85-92 | Channel padding applies to every image, one for one |
| ImageStitch.PadChannelsToMax | nodes.py:82-92 | Every image ends with the largest channel count, other dimensions unchanged |
| ImageStitch.RescaleAll | nodes.py:66-77 | Rescaling fails exactly when some image has height 0. Otherwise every image takes the target height and the scaled width, and keeps its batch and channels |
| ImageStitch.MatchSizes | nodes.py:62-79 | With matching off, the images are unchanged. With it on, the first image is kept and all take its height, failing exactly when a later image has height 0 |
| ImageStitch.RescaledUniform | nodes.py:62-79 | Rescaling images of one batch and positive height keeps that batch and the channels, and fixes the height to the first image's |
| ImageStitch.Concat | nodes.py:95 | Concatenation succeeds exactly when the images agree on batch, height and channels; the result keeps those and has the total width |
| ImageStitch.ConcatAppend | nodes.py:95 | Concatenating two aligned runs equals concatenating their two results |
| ImageStitch.ConcatUniform | nodes.py:94-95 | Images of one batch and channel count concatenate exactly when their heights agree, giving the total width |
| ImageStitch.Stitch | nodes.py:35-97 | Fewer than two collected images return `image_1` unchanged. With two or more, a successful stitch has the largest batch, the height of `image_1` and the most channels among the collected images |
| ImageStitch.Combine | nodes.py:49-97 | An image without frames next to one with frames makes stitching fail. A successful stitch has the largest batch, the first image's height and the most channels |
| ImageStitch.CombineSideBySide | nodes.py:49-97 | With matching off and every image having frames, stitching succeeds exactly when all heights agree. The result has the largest batch, that height, the total width and the most channels |
| ImageStitch.CombineMatched | nodes.py:49-97 | With matching on and every image having frames and height, stitching succeeds at the first image's height with the largest batch and the most channels |
| ImageStitch.CombineEmptyBatchFails | nodes.py:55-57 | An image without frames next to one with frames makes stitching fail |
| ImageStitch.StitchSideBySide | nodes.py:35-97 | For the node as called: with matching off, two or more collected images of one height that all have frames give the largest batch, that height, the total width and the most channels |

## Left out

- Canvas and UI glue are not modelled: going to the setter, the context menu, drawing the virtual link, marking the canvas dirty, and the toast. Of the toast, only the warning text is kept (`GetNode.GetInputLink`).
- The deferred first run (`setTimeout`) and the chaining of the widget's original callback are event scheduling, not logic. So are the guards that skip nodes of another class or without a `num_images` widget.
- The host's size computation is a parameter (`computeSize`), since it is host layout.
- The auto-colour setting is a boolean parameter of `GetNode.OnRename`.
- The canvas palette's actual colour codes are not modelled; entries are referred to by name.
- `clone`, `setName`'s serialisation, and extension and node-type registration are host plumbing.
- `onConnectionsChange` only calls link validation; it is covered by `GetNode.ValidateLinks`. Validation that re-enters while links are being removed is not modelled.
- The Python registration module imports `RMImageStitch`, but the node class is named `ReiImageStitch`. This is a naming mismatch in registration, outside the modelled logic.
- ImageStitch.RescaleAll: the rescaled width is a parameter. The code computes it by float division, `int()` truncation, and a lanczos resampler from a library that is not modelled. The model assumes the resampler keeps batch and channels and produces exactly the requested height and width.
- Tensor contents and devices are not modelled: the repeated last frame, the opaque alpha values, and pixel data. Only shapes are kept.
- GetNode.ComboValues: strings are ordered by character, while the code's default sort compares UTF-16 code units. The two orders differ only for characters outside the Basic Multilingual Plane.
- GetNode.RemoveLink: an id listed twice on the output is dropped entirely. The host's removal splices a single occurrence.
- Lookups such as `colorMap[type]` and `graph.links[id]` also find inherited object properties (for example the type `constructor`). The model's maps hold only the listed keys.
- A setter node without a first widget is not modelled; every node carries its first widget's value as a string.
- GetNode.OnRename: a setter without inputs makes the code throw a type error. This is modelled as `Failure(MissingSetterInput)`.
- GetNode.GetInputLink: a slot the setter lacks likewise throws. This is modelled as `SlotMissing`.
- PortSync.SyncNode: keeps the width the node had before the ports were rewritten. The code reads `node.size[0]` after the host's `addInput`/`removeInput`, and the model assumes those calls leave the width alone.
- PortSync.Idempotent: requires gap-free slot names or a first run that did not shrink. These conditions are sufficient, not necessary; without them the claim fails in general, as `PortSync.IdempotenceNeedsNumbering` shows.
- PortSync.UpdateInputsReplays: the host's `disconnectInput` and `removeInput` are modelled by their effect on the input list only. The host's own bookkeeping of the graph's links, and of the slots that later links point to, is not modelled.
- ImageStitch.CombineMatched: states the height, batch and channels of the result but not its width. The width depends on the rescaling parameter.

## Findings

| source | as written | input that shows it | evidently intended | confidence | as-written member | corrected member |
|---|---|---|---|---|---|---|
| web/js/reiGetNode.js:29-32 | For an unlisted type, `this.color` and `this.bgcolor` are both set to the palette entry `LGraphCanvas.node_colors.gray`. That entry is an object holding `color` and `bgcolor`, not a colour string. | Auto-colouring on and a setter whose first input has type `STRING` | The gray entry's `color` and `bgcolor`, as the table's `DEFAULT` row and lines 26-28 use them | high; not executed | NodeColors.AsWrittenStringIsUnpainted | NodeColors.ColorsFor |

=== FILE: get_node.dfy ===
/**
 * The name-binding getter node. It selects a name; the first setter node in
 * graph order whose own name matches supplies the getter's output type. When
 * the type changes, links leaving the getter that can no longer carry it are
 * removed from the graph.
 */
module GetNode {
  import opened Wrappers
  import opened Text
  import opened Seqs
  import Sorting
  import NodeColors

  type LinkId = int

  /** The wildcard type: an output or link of this type accepts anything. */
  const Wildcard: string := "*"
  /** The node type of setter nodes. */
  const SetterType: string := "SetNode"
  /** The node type under which the getter is registered. */
  const GetterType: string := "ReiGetNode"
  /** What the getter's title becomes once it resolves a setter. */
  const TitlePrefix: string := "GET-"

  /** An input slot of a graph node: its type and the id of the link plugged in, if any. */
  datatype Slot = Slot(slotType: string, link: Option<LinkId>)

  /** A graph node as the getter sees it: its type, the value of its first widget, its inputs. */
  datatype Node = Node(nodeType: string, widgetValue: string, inputs: seq<Slot>)

  /** A link of the graph; only its type matters here. The type may list several types separated by commas. */
  datatype Link = Link(linkType: string)

  /** The host graph: its nodes in graph order and its links by id. */
  datatype Graph = Graph(nodes: seq<Node>, links: map<LinkId, Link>)

  /** The getter's single output: name, type and the ids of the links leaving it (`None` when never connected). */
  datatype Output = Output(name: string, outType: string, links: Option<seq<LinkId>>)

  /** The getter's own state: the selected name, title, output and colours (`None` while the host default is in use). */
  datatype Getter = Getter(selected: string, title: string, output: Output, colors: Option<NodeColors.Colors>)

  /** The getter together with the graph it lives in. */
  datatype Scene = Scene(getter: Getter, graph: Graph)

  /** Renaming fails when the matched setter has no input slot to take a type from. */
  datatype Fault = MissingSetterInput

  /** What tracing an input through the setter gives: a link (or nothing), a warning, or a missing slot. */
  datatype Trace = Traced(link: Option<Link>) | NoSetter(warning: string) | SlotMissing(slot: int)

  // ---------------------------------------------------------------------
  // Finding the setter
  // ---------------------------------------------------------------------

  /** A setter node bound to `name`; the empty name binds nothing. */
  predicate IsSetterFor(n: Node, name: string) {
    n.nodeType == SetterType && n.widgetValue == name && name != ""
  }

  /** The position of the first setter bound to `name`, in graph order. */
  function FindSetter(nodes: seq<Node>, name: string): (r: Option<nat>)
    ensures name == "" ==> r.None?
    ensures r.Some? ==> r.value < |nodes| && IsSetterFor(nodes[r.value], name)
    ensures r.Some? ==> forall j :: 0 <= j < r.value ==> !IsSetterFor(nodes[j], name)
    ensures r.None? ==> forall j :: 0 <= j < |nodes| ==> !IsSetterFor(nodes[j], name)
  {
    FindFirst(nodes, (n: Node) => IsSetterFor(n, name))
  }

  /** The names of all setter nodes, in graph order, duplicates kept. */
  function SetterNames(nodes: seq<Node>): seq<string> {
    if |nodes| == 0 then []
    else (if nodes[0].nodeType == SetterType then [nodes[0].widgetValue] else []) + SetterNames(nodes[1..])
  }

  /** A name is among the setter names exactly when some setter node carries it. */
  lemma {:induction false} SetterNamesListed(nodes: seq<Node>, x: string)
    ensures x in SetterNames(nodes) <==>
      exists k :: 0 <= k < |nodes| && nodes[k].nodeType == SetterType && nodes[k].widgetValue == x
  {
    if |nodes| > 0 {
      SetterNamesListed(nodes[1..], x);
      assert forall k :: 1 <= k < |nodes| ==> nodes[k] == nodes[1..][k - 1];
      if x in SetterNames(nodes[1..]) {
        var k :| 0 <= k < |nodes[1..]| && nodes[1..][k].nodeType == SetterType && nodes[1..][k].widgetValue == x;
        assert nodes[k + 1] == nodes[1..][k];
      }
    }
  }

  /** The choices the getter's name widget offers: every setter's name, sorted. */
  function ComboValues(nodes: seq<Node>): (r: seq<string>)
    ensures Sorting.Sorted(r)
    ensures multiset(r) == multiset(SetterNames(nodes))
    ensures |r| == |SetterNames(nodes)|
  {
    var r := Sorting.Sort(SetterNames(nodes));
    assert |r| == |multiset(r)| == |multiset(SetterNames(nodes))| == |SetterNames(nodes)|;
    r
  }

  /** The sorted order is the only one: any sorted arrangement of the setter names is the combo list. */
  lemma ComboIsUnique(nodes: seq<Node>, s: seq<string>)
    requires Sorting.Sorted(s) && multiset(s) == multiset(SetterNames(nodes))
    ensures s == ComboValues(nodes)
  {
    Sorting.SortedUnique(s, ComboValues(nodes));
  }

  /** Every non-empty name the combo offers resolves to a setter, and every resolvable name is offered. */
  lemma ComboOffersResolvableNames(nodes: seq<Node>, name: string)
    requires name != ""
    ensures name in ComboValues(nodes) <==> FindSetter(nodes, name).Some?
  {
    var r := ComboValues(nodes);
    assert name in r <==> name in multiset(r);
    SetterNamesListed(nodes, name);
    if FindSetter(nodes, name).Some? {
      var k := FindSetter(nodes, name).value;
      assert nodes[k].nodeType == SetterType && nodes[k].widgetValue == name;
    } else {
      assert forall k :: 0 <= k < |nodes| ==> !IsSetterFor(nodes[k], name);
    }
  }

  // ---------------------------------------------------------------------
  // Link hygiene
  // ---------------------------------------------------------------------

  /** A link can carry output type `t` when it is a wildcard link or lists `t` among its comma-separated types. */
  predicate Compatible(l: Link, t: string): (r: bool)
    ensures l.linkType == Wildcard ==> r
    ensures ',' !in l.linkType ==> (r <==> l.linkType == Wildcard || l.linkType == t)
  {
    if ',' in l.linkType then t in Split(l.linkType, ',')
    else
      SplitJoin([l.linkType], ',');
      l.linkType == Wildcard || t in Split(l.linkType, ',')
  }

  /** For a link typed by a comma-joined list, compatibility is membership in that list. */
  lemma CompatibleWithListedTypes(types: seq<string>, t: string)
    requires |types| >= 1
    requires forall k :: 0 <= k < |types| ==> ',' !in types[k]
    ensures Compatible(Link(Join(types, ',')), t) <==> Join(types, ',') == Wildcard || t in types
  {
    SplitJoin(types, ',');
  }

  /** `ids` with every member of `gone` dropped, order kept. */
  function Without(ids: seq<LinkId>, gone: set<LinkId>): (r: seq<LinkId>)
    ensures forall id :: id in r <==> id in ids && id !in gone
    ensures |r| <= |ids|
  {
    if |ids| == 0 then []
    else (if ids[0] in gone then [] else [ids[0]]) + Without(ids[1..], gone)
  }

  lemma {:induction false} WithoutTwice(ids: seq<LinkId>, a: set<LinkId>, b: set<LinkId>)
    ensures Without(Without(ids, a), b) == Without(ids, a + b)
  {
    if |ids| > 0 {
      WithoutTwice(ids[1..], a, b);
      if ids[0] in a {
        assert Without(ids, a) == [] + Without(ids[1..], a) == Without(ids[1..], a);
        assert Without(ids, a + b) == [] + Without(ids[1..], a + b) == Without(ids[1..], a + b);
      } else {
        assert Without(ids, a) == [ids[0]] + Without(ids[1..], a);
        assert Without(ids, a)[0] == ids[0];
        assert Without(ids, a)[1..] == Without(ids[1..], a);
      }
    }
  }

  /**
   * Dropping keeps order: filtering a concatenation filters each part in
   * place, and a single id survives exactly when it is not dropped.
   */
  lemma {:induction false} WithoutAppend(a: seq<LinkId>, b: seq<LinkId>, gone: set<LinkId>)
    ensures Without(a + b, gone) == Without(a, gone) + Without(b, gone)
    ensures |a| == 1 ==> Without(a, gone) == (if a[0] in gone then [] else a)
    decreases |a|
  {
    if |a| == 0 {
      assert a + b == b;
    } else {
      assert (a + b)[0] == a[0];
      assert (a + b)[1..] == a[1..] + b;
      WithoutAppend(a[1..], b, gone);
      var head := if a[0] in gone then [] else [a[0]];
      AppendAssoc(head, Without(a[1..], gone), Without(b, gone));
      if |a| == 1 {
        assert a[1..] == [];
        assert Without(a[1..], gone) == [];
        assert a == [a[0]];
      }
    }
  }

  lemma {:induction false} WithoutNothing(ids: seq<LinkId>)
    ensures Without(ids, {}) == ids
  {
    if |ids| > 0 {
      WithoutNothing(ids[1..]);
      assert ids == [ids[0]] + ids[1..];
    }
  }

  /** The getter's output list together with the graph's links, as link removal changes them. */
  datatype Wiring = Wiring(ids: seq<LinkId>, links: map<LinkId, Link>)

  /**
   * The host's link removal: a link still in the graph leaves the graph and
   * the output's list; an id no longer in the graph is ignored.
   */
  function RemoveLink(w: Wiring, id: LinkId): (r: Wiring)
    ensures id !in r.links
    ensures id in w.links ==> r.links.Keys == w.links.Keys - {id}
    ensures forall x :: x in r.links ==> x in w.links && r.links[x] == w.links[x]
    ensures id in w.links ==> forall x :: x in r.ids <==> x in w.ids && x != id
    ensures id !in w.links ==> r == w
  {
    if id in w.links then Wiring(Without(w.ids, {id}), w.links - {id}) else w
  }

  /** Removing the links of `doomed` one after another. */
  function RemoveAll(w: Wiring, doomed: seq<LinkId>): (r: Wiring)
    ensures forall id :: id in doomed ==> id !in r.links
    ensures forall id :: id in w.links && id !in doomed ==> id in r.links && r.links[id] == w.links[id]
    ensures forall id :: id in r.links ==> id in w.links
    decreases |doomed|
  {
    if |doomed| == 0 then w else RemoveAll(RemoveLink(w, doomed[0]), doomed[1..])
  }

  /** The ids of `doomed` that are links of the graph. */
  function Hit(doomed: seq<LinkId>, links: map<LinkId, Link>): set<LinkId> {
    set id | id in doomed && id in links
  }

  /** How the links hit by `doomed` split into its first id and those the rest hits afterwards. */
  lemma HitStep(links: map<LinkId, Link>, doomed: seq<LinkId>)
    requires |doomed| > 0
    ensures doomed[0] in links ==>
      Hit(doomed, links) == {doomed[0]} + Hit(doomed[1..], links - {doomed[0]}) &&
      (links - {doomed[0]}) - Hit(doomed[1..], links - {doomed[0]}) == links - Hit(doomed, links)
    ensures doomed[0] !in links ==> Hit(doomed, links) == Hit(doomed[1..], links)
  {
    assert forall id :: id in doomed <==> id == doomed[0] || id in doomed[1..];
  }

  /** Removing a sequence of links one by one removes, all at once, those of them the graph holds. */
  lemma {:induction false} RemoveAllEffect(w: Wiring, doomed: seq<LinkId>)
    ensures RemoveAll(w, doomed) == Wiring(Without(w.ids, Hit(doomed, w.links)), w.links - Hit(doomed, w.links))
    decreases |doomed|
  {
    if |doomed| == 0 {
      assert Hit(doomed, w.links) == {};
      WithoutNothing(w.ids);
      assert w.links - {} == w.links;
    } else {
      var d := doomed[0];
      var next := RemoveLink(w, d);
      RemoveAllEffect(next, doomed[1..]);
      HitStep(w.links, doomed);
      if d in w.links {
        WithoutTwice(w.ids, {d}, Hit(doomed[1..], next.links));
      }
    }
  }

  /** The ids of `ids`, in order, whose link is in the graph and cannot carry `t`. */
  function Doomed(ids: seq<LinkId>, links: map<LinkId, Link>, t: string): (r: seq<LinkId>)
    ensures forall id :: id in r <==> id in ids && id in links && !Compatible(links[id], t)
  {
    if |ids| == 0 then []
    else
      (if ids[0] in links && !Compatible(links[ids[0]], t) then [ids[0]] else [])
      + Doomed(ids[1..], links, t)
  }

  /** The links of the output's list that are in the graph and cannot carry `t`. */
  function Incompatible(ids: seq<LinkId>, links: map<LinkId, Link>, t: string): set<LinkId> {
    set id | id in ids && id in links && !Compatible(links[id], t)
  }

  /** The getter's outgoing links are hygienic when each one the graph holds can carry the output type. */
  predicate Hygienic(sc: Scene) {
    var out := sc.getter.output;
    out.outType == Wildcard || out.links.None? ||
    forall id :: id in out.links.value && id in sc.graph.links ==> Compatible(sc.graph.links[id], out.outType)
  }

  /**
   * Link validation: unless the output is a wildcard or has never been
   * connected, every outgoing link the graph holds whose type cannot carry
   * the output type is removed from the graph and from the output's list.
   */
  function ValidateLinks(sc: Scene): (r: Scene)
    ensures r.getter.selected == sc.getter.selected && r.getter.title == sc.getter.title
    ensures r.getter.colors == sc.getter.colors && r.graph.nodes == sc.graph.nodes
    ensures r.getter.output.name == sc.getter.output.name && r.getter.output.outType == sc.getter.output.outType
    ensures sc.getter.output.outType == Wildcard || sc.getter.output.links.None? ==> r == sc
    ensures sc.getter.output.outType != Wildcard && sc.getter.output.links.Some? ==>
      var ids := sc.getter.output.links.value;
      var gone := Incompatible(ids, sc.graph.links, sc.getter.output.outType);
      r.getter.output.links == Some(Without(ids, gone)) && r.graph.links == sc.graph.links - gone
  {
    var out := sc.getter.output;
    if out.outType == Wildcard || out.links.None? then sc
    else
      var doomed := Doomed(out.links.value, sc.graph.links, out.outType);
      var w := RemoveAll(Wiring(out.links.value, sc.graph.links), doomed);
      RemoveAllEffect(Wiring(out.links.value, sc.graph.links), doomed);
      assert Hit(doomed, sc.graph.links) == Incompatible(out.links.value, sc.graph.links, out.outType);
      sc.(getter := sc.getter.(output := out.(links := Some(w.ids))), graph := sc.graph.(links := w.links))
  }

  /** After validation the getter's links are hygienic. */
  lemma ValidatedIsHygienic(sc: Scene)
    ensures Hygienic(ValidateLinks(sc))
  {
  }

  /** Validation changes nothing exactly when the getter's links are already hygienic. */
  lemma ValidateFixesExactlyHygienic(sc: Scene)
    ensures ValidateLinks(sc) == sc <==> Hygienic(sc)
  {
    var out := sc.getter.output;
    if out.outType != Wildcard && out.links.Some? {
      var ids := out.links.value;
      var gone := Incompatible(ids, sc.graph.links, out.outType);
      if Hygienic(sc) {
        assert forall id :: id !in gone;
        assert gone == {};
        WithoutNothing(ids);
        assert Without(ids, gone) == ids;
        var r := ValidateLinks(sc);
        assert r.getter.output.links == Some(Without(ids, gone));
        assert sc.graph.links - gone == sc.graph.links;
        assert r.getter.output == out;
        assert r.graph == sc.graph;
      } else {
        var id :| id in ids && id in sc.graph.links && !Compatible(sc.graph.links[id], out.outType);
        assert id in gone;
        assert id !in ValidateLinks(sc).graph.links;
      }
    }
  }

  /** Setting the type names the output after it, then validates the outgoing links. */
  function SetType(sc: Scene, t: string): (r: Scene)
    ensures r.getter.output.name == t && r.getter.output.outType == t
    ensures Hygienic(r)
    ensures r.getter.selected == sc.getter.selected && r.getter.title == sc.getter.title
    ensures r.getter.colors == sc.getter.colors && r.graph.nodes == sc.graph.nodes
    ensures t == Wildcard ==> r.graph == sc.graph && r.getter.output.links == sc.getter.output.links
    ensures sc.getter.output.links.None? ==> r.graph == sc.graph && r.getter.output.links.None?
    ensures t != Wildcard && sc.getter.output.links.Some? ==>
      var ids := sc.getter.output.links.value;
      var gone := Incompatible(ids, sc.graph.links, t);
      r.getter.output.links == Some(Without(ids, gone)) && r.graph.links == sc.graph.links - gone
  {
    var named := sc.(getter := sc.getter.(output := sc.getter.output.(name := t, outType := t)));
    ValidatedIsHygienic(named);
    ValidateLinks(named)
  }

  // ---------------------------------------------------------------------
  // Renaming and tracing
  // ---------------------------------------------------------------------

  /**
   * Re-resolving the selected name. With a setter, the output takes the type
   * of the setter's first input, the title becomes `GET-` and the name, and,
   * when automatic colouring is on, the colours are those the colour table
   * assigns as written (for an unlisted type, the whole gray palette entry).
   * Without a setter the output becomes a wildcard. A setter without inputs
   * fails.
   */
  function OnRename(sc: Scene, autoColor: bool): (r: Result<Scene, Fault>)
    ensures r.Failure? <==>
      FindSetter(sc.graph.nodes, sc.getter.selected).Some? &&
      |sc.graph.nodes[FindSetter(sc.graph.nodes, sc.getter.selected).value].inputs| == 0
    ensures r.Success? ==> Hygienic(r.value)
    ensures r.Success? ==> r.value.graph.nodes == sc.graph.nodes && r.value.getter.selected == sc.getter.selected
    ensures FindSetter(sc.graph.nodes, sc.getter.selected).None? ==>
      r.Success? && r.value.getter.output == sc.getter.output.(name := Wildcard, outType := Wildcard) &&
      r.value.getter.title == sc.getter.title &&
      r.value.getter.colors == sc.getter.colors && r.value.graph == sc.graph
    ensures r.Success? && FindSetter(sc.graph.nodes, sc.getter.selected).Some? ==>
      var setter := sc.graph.nodes[FindSetter(sc.graph.nodes, sc.getter.selected).value];
      var t := setter.inputs[0].slotType;
      r.value.getter.output.name == t && r.value.getter.output.outType == t &&
      r.value.getter.title == TitlePrefix + sc.getter.selected &&
      r.value.getter.colors == (if autoColor then Some(NodeColors.ColorsAsWritten(t)) else sc.getter.colors)
    ensures r.Success? && FindSetter(sc.graph.nodes, sc.getter.selected).Some? ==>
      var t := sc.graph.nodes[FindSetter(sc.graph.nodes, sc.getter.selected).value].inputs[0].slotType;
      (sc.getter.output.links.None? ==> r.value.graph == sc.graph && r.value.getter.output.links.None?) &&
      (t != Wildcard && sc.getter.output.links.Some? ==>
        var ids := sc.getter.output.links.value;
        var gone := Incompatible(ids, sc.graph.links, t);
        r.value.getter.output.links == Some(Without(ids, gone)) && r.value.graph.links == sc.graph.links - gone) &&
      (t == Wildcard ==> r.value.graph == sc.graph && r.value.getter.output.links == sc.getter.output.links)
  {
    match FindSetter(sc.graph.nodes, sc.getter.selected)
    case None => Success(SetType(sc, Wildcard))
    case Some(k) =>
      var setter := sc.graph.nodes[k];
      if |setter.inputs| == 0 then Failure(MissingSetterInput)
      else
        var t := setter.inputs[0].slotType;
        var typed := SetType(sc, t);
        var titled := typed.(getter := typed.getter.(title := TitlePrefix + setter.widgetValue));
        if autoColor then Success(titled.(getter := titled.getter.(colors := Some(NodeColors.ColorsAsWritten(t)))))
        else Success(titled)
  }

  /** Selecting a name and re-resolving it. */
  function SetName(sc: Scene, name: string, autoColor: bool): (r: Result<Scene, Fault>)
    ensures r.Success? ==> r.value.getter.selected == name
    ensures name == "" ==> r.Success? && r.value.getter.output.outType == Wildcard
  {
    OnRename(sc.(getter := sc.getter.(selected := name)), autoColor)
  }

  /** The link plugged into a slot, when it is one the graph holds. */
  function LinkAt(links: map<LinkId, Link>, s: Slot): Option<Link> {
    if s.link.Some? && s.link.value in links then Some(links[s.link.value]) else None
  }

  /** The warning shown when no setter is bound to the selected name. */
  function NoSetterWarning(name: string): (r: string)
    ensures StartsWith(r, NoSetterPrefix)
    ensures |r| == |NoSetterPrefix| + |name| + |GetterType| + 3
    ensures r[|NoSetterPrefix|..|NoSetterPrefix| + |name|] == name
    ensures r[|NoSetterPrefix| + |name|..] == " (" + GetterType + ")"
  {
    NoSetterPrefix + name + " (" + GetterType + ")"
  }

  /** The fixed opening of the warning. */
  const NoSetterPrefix: string := "No SetNode found for "

  /** Different names give different warnings, so the warning always tells which name failed. */
  lemma NoSetterWarningInjective(a: string, b: string)
    ensures NoSetterWarning(a) == NoSetterWarning(b) ==> a == b
  {
    if NoSetterWarning(a) == NoSetterWarning(b) {
      var w := NoSetterWarning(a);
      assert a == w[|NoSetterPrefix|..|NoSetterPrefix| + |a|];
    }
  }

  /**
   * Tracing the getter's input through the setter: the link plugged into the
   * setter's input `slot`. Without a setter, only a warning; a slot the
   * setter lacks is an error.
   */
  function GetInputLink(sc: Scene, slot: int): (r: Trace)
    ensures r.NoSetter? <==> FindSetter(sc.graph.nodes, sc.getter.selected).None?
    ensures r.NoSetter? ==> StartsWith(r.warning, "No SetNode found for " + sc.getter.selected)
    ensures FindSetter(sc.graph.nodes, sc.getter.selected).Some? ==>
      var setter := sc.graph.nodes[FindSetter(sc.graph.nodes, sc.getter.selected).value];
      (r.Traced? <==> 0 <= slot < |setter.inputs|) &&
      (r.Traced? ==> r.link == LinkAt(sc.graph.links, setter.inputs[slot])) &&
      (r.SlotMissing? <==> !(0 <= slot < |setter.inputs|)) &&
      (r.SlotMissing? ==> r.slot == slot)
  {
    match FindSetter(sc.graph.nodes, sc.getter.selected)
    case None => NoSetter(NoSetterWarning(sc.getter.selected))
    case Some(k) =>
      var setter := sc.graph.nodes[k];
      if 0 <= slot < |setter.inputs| then Traced(LinkAt(sc.graph.links, setter.inputs[slot]))
      else SlotMissing(slot)
  }

  /**
   * After a successful rename onto a setter, tracing slot 0 follows the very
   * input whose type the getter's output now carries.
   */
  lemma RenamedGetterTracesItsType(sc: Scene, autoColor: bool)
    requires OnRename(sc, autoColor).Success?
    requires FindSetter(sc.graph.nodes, sc.getter.selected).Some?
    ensures var r := OnRename(sc, autoColor).value;
      var setter := sc.graph.nodes[FindSetter(sc.graph.nodes, sc.getter.selected).value];
      GetInputLink(r, 0) == Traced(LinkAt(r.graph.links, setter.inputs[0])) &&
      r.getter.output.outType == setter.inputs[0].slotType
  {
  }

  /**
   * With automatic colouring on, a rename onto a setter leaves the getter
   * with colours the canvas can paint exactly when the setter's input type is
   * listed in the colour table, which is also exactly when the colours agree
   * with the corrected assignment `NodeColors.ColorsFor`.
   */
  lemma RenamedColorsPaintableIffListed(sc: Scene)
    requires OnRename(sc, true).Success?
    requires FindSetter(sc.graph.nodes, sc.getter.selected).Some?
    ensures var r := OnRename(sc, true).value;
      var t := sc.graph.nodes[FindSetter(sc.graph.nodes, sc.getter.selected).value].inputs[0].slotType;
      r.getter.colors.Some? &&
      (NodeColors.PaintableColors(r.getter.colors.value) <==> t in NodeColors.ColorMap()) &&
      (t in NodeColors.ColorMap() <==> r.getter.colors.value == NodeColors.ColorsFor(t))
  {
    var t := sc.graph.nodes[FindSetter(sc.graph.nodes, sc.getter.selected).value].inputs[0].slotType;
    NodeColors.AsWrittenPaintableIffListed(t);
  }

  /**
   * A setter bound to `seed` with an `INT` input: the getter selecting `seed`
   * becomes `GET-seed` of type `INT`; once the setter is renamed `seed2`, the
   * same getter falls back to the wildcard.
   */
  lemma SeedScenario(g: Getter)
    requires g.selected == "seed" && g.output.links.None?
    ensures var before := Scene(g, Graph([Node(SetterType, "seed", [Slot("INT", None)])], map[]));
      OnRename(before, false).Success? &&
      OnRename(before, false).value.getter.output.outType == "INT" &&
      OnRename(before, false).value.getter.title == "GET-seed"
    ensures var after := Scene(g, Graph([Node(SetterType, "seed2", [Slot("INT", None)])], map[]));
      OnRename(after, false).Success? &&
      OnRename(after, false).value.getter.output.outType == Wildcard
  {
    var before := Scene(g, Graph([Node(SetterType, "seed", [Slot("INT", None)])], map[]));
    assert IsSetterFor(before.graph.nodes[0], "seed");
    var after := Scene(g, Graph([Node(SetterType, "seed2", [Slot("INT", None)])], map[]));
    assert !IsSetterFor(after.graph.nodes[0], "seed");
  }
}

=== FILE: image_stitch.dfy ===
/**
 * The image-stitch node at the level of tensor shapes. Images arrive as
 * `(batch, height, width, channels)` shapes; the node collects the provided
 * ones, pads batches and channels up to the largest, optionally rescales
 * every image after the first to the first one's height, and concatenates
 * them along the width.
 */
module ImageStitch {
  import opened Wrappers
  import opened Slots

  /** The largest number of image inputs the node declares. */
  const MaxImages: nat := 10

  /** The shape of an image tensor. */
  datatype Shape = Shape(batch: nat, height: nat, width: nat, channels: nat)

  /** The widget or socket of a declared input. */
  datatype Widget = IntInput(intDefault: int, min: int, max: int, step: int) | BoolInput(boolDefault: bool) | ImageInput

  datatype InputDecl = InputDecl(name: string, widget: Widget)

  /** The node's input declaration: required and optional inputs in declaration order. */
  datatype InputTypes = InputTypes(required: seq<InputDecl>, optional: seq<InputDecl>)

  /** Why stitching raises instead of returning an image. */
  datatype StitchError =
    | EmptyBatch      // an image with no frames needs padding, so it has no last frame to repeat
    | ZeroHeight      // an image to rescale has height 0, so its aspect ratio divides by zero
    | SizeMismatch    // the images disagree on a dimension other than the width

  // ---------------------------------------------------------------------
  // Input declaration
  // ---------------------------------------------------------------------

  /** Names of the inputs in a declaration list. */
  function DeclNames(decls: seq<InputDecl>): (names: seq<string>)
    ensures |names| == |decls|
    ensures forall k :: 0 <= k < |decls| ==> names[k] == decls[k].name
  {
    if |decls| == 0 then [] else [decls[0].name] + DeclNames(decls[1..])
  }

  /** Appending a declaration appends its name. */
  lemma {:induction false} DeclNamesSnoc(decls: seq<InputDecl>, d: InputDecl)
    ensures DeclNames(decls + [d]) == DeclNames(decls) + [d.name]
  {
    var longer := DeclNames(decls + [d]);
    assert |longer| == |decls| + 1;
    forall k | 0 <= k < |decls|
      ensures longer[k] == DeclNames(decls)[k]
    {
      assert (decls + [d])[k] == decls[k];
    }
    assert longer[|decls|] == (decls + [d])[|decls|].name == d.name;
  }

  /**
   * The declaration: the image count (default 3, from 2 to `MaxImages`), the
   * size-matching switch (default on) and `image_1` are required; `image_2`
   * to `image_10` are optional.
   */
  method DeclareInputs() returns (r: InputTypes)
    ensures r.required == [InputDecl("num_images", IntInput(3, 2, MaxImages, 1)),
                           InputDecl("match_image_size", BoolInput(true)),
                           InputDecl(ImageName(1), ImageInput)]
    ensures |r.optional| == MaxImages - 1
    ensures forall k :: 0 <= k < |r.optional| ==> r.optional[k].widget == ImageInput
    ensures DeclNames(r.optional) == NamesBetween(2, MaxImages)
  {
    var required := [InputDecl("num_images", IntInput(3, 2, MaxImages, 1)),
                     InputDecl("match_image_size", BoolInput(true)),
                     InputDecl(ImageName(1), ImageInput)];
    var optional: seq<InputDecl> := [];
    var i := 2;
    while i < MaxImages + 1
      invariant 2 <= i <= MaxImages + 1
      invariant |optional| == i - 2
      invariant forall k :: 0 <= k < |optional| ==> optional[k].widget == ImageInput
      invariant DeclNames(optional) == NamesBetween(2, i - 1)
    {
      var decl := InputDecl(ImageName(i), ImageInput);
      DeclNamesSnoc(optional, decl);
      NamesBetweenSnoc(2, i - 1);
      optional := optional + [decl];
      i := i + 1;
    }
    r := InputTypes(required, optional);
  }

  /** The image inputs declared are exactly the slots `image_1` to `image_10`, each once. */
  lemma DeclaredImageSlots(r: InputTypes)
    requires |r.required| == 3 && r.required[2] == InputDecl(ImageName(1), ImageInput)
    requires DeclNames(r.optional) == NamesBetween(2, MaxImages)
    ensures DeclNames([r.required[2]] + r.optional) == Numbered(MaxImages)
    ensures forall j, k :: 0 <= j < k < MaxImages ==> Numbered(MaxImages)[j] != Numbered(MaxImages)[k]
  {
    var image1 := r.required[2];
    assert DeclNames([image1] + r.optional) == [image1.name] + DeclNames(r.optional) by {
      assert ([image1] + r.optional)[1..] == r.optional;
    }
    NumberedFromTwo(MaxImages);
    NumberedDistinct(MaxImages);
  }

  // ---------------------------------------------------------------------
  // Collection
  // ---------------------------------------------------------------------

  /** The image provided for slot `i`, if any; a slot passed as `None` counts as not provided. */
  function SlotImage(provided: map<string, Shape>, i: int): Option<Shape> {
    if ImageName(i) in provided then Some(provided[ImageName(i)]) else None
  }

  /** Images from slot `i` onwards, up to slot `numImages`, stopping at the first slot `slot` has no image for. */
  function CollectFrom(i: int, numImages: int, slot: int -> Option<Shape>): (r: seq<Shape>)
    ensures i + |r| <= numImages + 1 || |r| == 0
    ensures forall k :: 0 <= k < |r| ==> slot(i + k) == Some(r[k])
    ensures i + |r| <= numImages ==> slot(i + |r|).None?
    decreases if i <= numImages then numImages - i + 1 else 0
  {
    if i > numImages || slot(i).None? then []
    else
      var rest := CollectFrom(i + 1, numImages, slot);
      var r := [slot(i).value] + rest;
      forall k | 1 <= k < |r|
        ensures slot(i + k) == Some(r[k])
      {
        assert r[k] == rest[k - 1];
        assert slot((i + 1) + (k - 1)) == Some(rest[k - 1]);
      }
      r
  }

  /**
   * The images taken part: the first image, then the images provided for
   * slots 2, 3, ... up to `numImages`, stopping at the first slot that was
   * not provided.
   */
  function Collect(numImages: int, image1: Shape, provided: map<string, Shape>): (images: seq<Shape>)
    ensures |images| >= 1 && images[0] == image1
    ensures |images| == 1 || |images| <= numImages
    ensures forall k :: 1 <= k < |images| ==> SlotImage(provided, k + 1) == Some(images[k])
    ensures |images| < numImages ==> SlotImage(provided, |images| + 1).None?
  {
    var slot := (n: int) => SlotImage(provided, n);
    var rest := CollectFrom(2, numImages, slot);
    var images := [image1] + rest;
    forall k | 1 <= k < |images|
      ensures SlotImage(provided, k + 1) == Some(images[k])
    {
      assert images[k] == rest[k - 1];
      assert slot(2 + (k - 1)) == Some(rest[k - 1]);
    }
    assert |images| < numImages ==> slot(2 + |rest|).None?;
    images
  }

  // ---------------------------------------------------------------------
  // Batch and channel padding
  // ---------------------------------------------------------------------

  function Batches(images: seq<Shape>): (r: seq<nat>)
    ensures |r| == |images| && forall k :: 0 <= k < |images| ==> r[k] == images[k].batch
  {
    if |images| == 0 then [] else [images[0].batch] + Batches(images[1..])
  }

  function Channels(images: seq<Shape>): (r: seq<nat>)
    ensures |r| == |images| && forall k :: 0 <= k < |images| ==> r[k] == images[k].channels
  {
    if |images| == 0 then [] else [images[0].channels] + Channels(images[1..])
  }

  function Widths(images: seq<Shape>): (r: seq<nat>)
    ensures |r| == |images| && forall k :: 0 <= k < |images| ==> r[k] == images[k].width
  {
    if |images| == 0 then [] else [images[0].width] + Widths(images[1..])
  }

  /** The largest element of a non-empty sequence. */
  function Max(xs: seq<nat>): (m: nat)
    requires |xs| > 0
    ensures m in xs
    ensures forall k :: 0 <= k < |xs| ==> xs[k] <= m
  {
    if |xs| == 1 then xs[0]
    else
      var rest := Max(xs[1..]);
      if xs[0] >= rest then xs[0] else rest
  }

  function Sum(xs: seq<nat>): nat {
    if |xs| == 0 then 0 else xs[0] + Sum(xs[1..])
  }

  lemma {:induction false} SumAppend(a: seq<nat>, b: seq<nat>)
    ensures Sum(a + b) == Sum(a) + Sum(b)
  {
    if |a| > 0 {
      assert (a + b)[1..] == a[1..] + b;
      SumAppend(a[1..], b);
    } else {
      assert a + b == b;
    }
  }

  /**
   * Padding one image to `maxBatch` frames by repeating its last frame. An
   * image with no frames has nothing to repeat.
   */
  function PadBatch(img: Shape, maxBatch: nat): (r: Result<Shape, StitchError>)
    ensures r.Failure? <==> img.batch == 0 < maxBatch
    ensures r.Success? ==> r.value.batch == (if img.batch < maxBatch then maxBatch else img.batch)
    ensures r.Success? ==> r.value.(batch := img.batch) == img
  {
    if img.batch < maxBatch then
      if img.batch == 0 then Failure(EmptyBatch)
      else Success(img.(batch := img.batch + (maxBatch - img.batch)))
    else Success(img)
  }

  /** Padding every image's batch; the first image that cannot be padded fails the whole step. */
  function PadBatches(images: seq<Shape>, maxBatch: nat): (r: Result<seq<Shape>, StitchError>)
    ensures r.Failure? <==> exists k :: 0 <= k < |images| && images[k].batch == 0 < maxBatch
    ensures r.Failure? ==> r.error == EmptyBatch
    ensures r.Success? ==> |r.value| == |images|
    ensures r.Success? ==> forall k :: 0 <= k < |images| ==> PadBatch(images[k], maxBatch) == Success(r.value[k])
  {
    if |images| == 0 then Success([])
    else
      match PadBatch(images[0], maxBatch)
      case Failure(e) => Failure(e)
      case Success(first) =>
        match PadBatches(images[1..], maxBatch)
        case Failure(e) =>
          ghost var k :| 0 <= k < |images[1..]| && images[1..][k].batch == 0 < maxBatch;
          assert images[k + 1] == images[1..][k];
          Failure(e)
        case Success(rest) =>
          assert forall k :: 1 <= k < |images| ==> images[k] == images[1..][k - 1];
          Success([first] + rest)
  }

  /** Padding to the largest batch leaves every image with that batch and its other dimensions intact. */
  lemma PadBatchesToMax(images: seq<Shape>)
    requires |images| > 0
    requires forall k :: 0 <= k < |images| ==> images[k].batch > 0
    ensures var maxBatch := Max(Batches(images));
      PadBatches(images, maxBatch).Success? &&
      forall k :: 0 <= k < |images| ==>
        var p := PadBatches(images, maxBatch).value[k];
        p.batch == maxBatch && p.(batch := images[k].batch) == images[k] &&
        (images[k].batch == maxBatch ==> p == images[k])
  {
    var maxBatch := Max(Batches(images));
    var r := PadBatches(images, maxBatch);
    forall k | 0 <= k < |images|
      ensures images[k].batch <= maxBatch
    {
      assert Batches(images)[k] == images[k].batch;
    }
  }

  /** Padding one image with opaque channels up to `maxChannels`. */
  function PadChannel(img: Shape, maxChannels: nat): (r: Shape)
    ensures r.channels >= maxChannels && r.channels >= img.channels
    ensures r.channels == maxChannels || r.channels == img.channels
    ensures r.(channels := img.channels) == img
  {
    if img.channels < maxChannels then img.(channels := maxChannels) else img
  }

  function PadChannels(images: seq<Shape>, maxChannels: nat): (r: seq<Shape>)
    ensures |r| == |images|
    ensures forall k :: 0 <= k < |images| ==> r[k] == PadChannel(images[k], maxChannels)
  {
    if |images| == 0 then [] else [PadChannel(images[0], maxChannels)] + PadChannels(images[1..], maxChannels)
  }

  /** Padding to the most channels leaves every image with that many and its other dimensions intact. */
  lemma PadChannelsToMax(images: seq<Shape>)
    requires |images| > 0
    ensures var maxChannels := Max(Channels(images));
      forall k :: 0 <= k < |images| ==>
        var p := PadChannels(images, maxChannels)[k];
        p.channels == maxChannels && p.(channels := images[k].channels) == images[k]
  {
    var maxChannels := Max(Channels(images));
    forall k | 0 <= k < |images|
      ensures images[k].channels <= maxChannels
    {
      assert Channels(images)[k] == images[k].channels;
    }
  }

  // ---------------------------------------------------------------------
  // Rescaling to the first image's height
  // ---------------------------------------------------------------------

  /**
   * Rescaling the images after the first to `height`. The new width is
   * `scaledWidth(height, width, oldHeight)`, the truncated product of the
   * target height and the aspect ratio; an image of height 0 has no aspect
   * ratio.
   */
  function RescaleAll(images: seq<Shape>, height: nat, scaledWidth: (nat, nat, nat) -> nat): (r: Result<seq<Shape>, StitchError>)
    ensures r.Failure? <==> exists k :: 0 <= k < |images| && images[k].height == 0
    ensures r.Success? ==> |r.value| == |images|
    ensures r.Success? ==> forall k :: 0 <= k < |images| ==>
      r.value[k] == Shape(images[k].batch, height, scaledWidth(height, images[k].width, images[k].height), images[k].channels)
  {
    if |images| == 0 then Success([])
    else if images[0].height == 0 then Failure(ZeroHeight)
    else
      match RescaleAll(images[1..], height, scaledWidth)
      case Failure(e) =>
        ghost var k :| 0 <= k < |images[1..]| && images[1..][k].height == 0;
        assert images[k + 1] == images[1..][k];
        Failure(e)
      case Success(rest) =>
        assert forall k :: 1 <= k < |images| ==> images[k] == images[1..][k - 1];
        Success([Shape(images[0].batch, height, scaledWidth(height, images[0].width, images[0].height), images[0].channels)] + rest)
  }

  /** With size matching on, every image after the first is rescaled to the first one's height. */
  function MatchSizes(images: seq<Shape>, matchSize: bool, scaledWidth: (nat, nat, nat) -> nat): (r: Result<seq<Shape>, StitchError>)
    requires |images| >= 1
    ensures !matchSize ==> r == Success(images)
    ensures matchSize ==> (r.Failure? <==> exists k :: 1 <= k < |images| && images[k].height == 0)
    ensures r.Success? ==> |r.value| == |images| && r.value[0] == images[0]
    ensures r.Success? ==> forall k :: 0 <= k < |images| ==>
      r.value[k].batch == images[k].batch && r.value[k].channels == images[k].channels
    ensures r.Success? && matchSize ==> forall k :: 0 <= k < |images| ==> r.value[k].height == images[0].height
  {
    if !matchSize then Success(images)
    else
      assert forall k :: 1 <= k < |images| ==> images[k] == images[1..][k - 1];
      match RescaleAll(images[1..], images[0].height, scaledWidth)
      case Failure(e) => Failure(e)
      case Success(rest) => Success([images[0]] + rest)
  }

  // ---------------------------------------------------------------------
  // Concatenation and the whole node
  // ---------------------------------------------------------------------

  /** Every image agrees with the first on batch, height and channels. */
  predicate Aligned(images: seq<Shape>)
    requires |images| >= 1
  {
    forall k :: 0 <= k < |images| ==>
      images[k].batch == images[0].batch && images[k].height == images[0].height &&
      images[k].channels == images[0].channels
  }

  /** Placing images side by side: they must agree on every dimension but the width, which adds up. */
  function Concat(images: seq<Shape>): (r: Result<Shape, StitchError>)
    requires |images| >= 1
    ensures r.Failure? <==> !Aligned(images)
    ensures r.Success? ==> r.value.width == Sum(Widths(images))
    ensures r.Success? ==> forall k :: 0 <= k < |images| ==>
      r.value.(width := images[k].width) == images[k]
  {
    if Aligned(images) then Success(images[0].(width := Sum(Widths(images)))) else Failure(SizeMismatch)
  }

  /** Two runs of aligned images that agree on their first image's batch, height and channels align together. */
  lemma AlignedAppend(a: seq<Shape>, b: seq<Shape>)
    requires |a| >= 1 && |b| >= 1 && Aligned(a) && Aligned(b)
    requires a[0].batch == b[0].batch && a[0].height == b[0].height && a[0].channels == b[0].channels
    ensures Aligned(a + b)
  {
    forall k | 0 <= k < |a + b|
      ensures (a + b)[k].batch == (a + b)[0].batch && (a + b)[k].height == (a + b)[0].height
      ensures (a + b)[k].channels == (a + b)[0].channels
    {
      if k >= |a| {
        assert (a + b)[k] == b[k - |a|];
      }
    }
  }

  /** The widths of two runs of images, one after the other, are the widths of the joined run. */
  lemma {:induction false} WidthsConcat(a: seq<Shape>, b: seq<Shape>)
    ensures Widths(a + b) == Widths(a) + Widths(b)
  {
    if |a| > 0 {
      assert (a + b)[1..] == a[1..] + b;
      WidthsConcat(a[1..], b);
    } else {
      assert a + b == b;
    }
  }

  /** The total width of two runs of images is the sum of their totals. */
  lemma WidthsAppend(a: seq<Shape>, b: seq<Shape>)
    ensures Sum(Widths(a + b)) == Sum(Widths(a)) + Sum(Widths(b))
  {
    WidthsConcat(a, b);
    SumAppend(Widths(a), Widths(b));
  }

  /** Stitching two runs of aligned images is stitching their results. */
  lemma ConcatAppend(a: seq<Shape>, b: seq<Shape>)
    requires |a| >= 1 && |b| >= 1
    requires Concat(a).Success? && Concat(b).Success?
    requires Concat(a).value.(width := 0) == Concat(b).value.(width := 0)
    ensures Concat(a + b) == Concat([Concat(a).value, Concat(b).value])
  {
    var x, y := Concat(a).value, Concat(b).value;
    AlignedAppend(a, b);
    WidthsAppend(a, b);
    assert Widths([x, y]) == [x.width, y.width];
    assert Sum([y.width]) == y.width + Sum([]);
    assert (a + b)[0] == a[0];
  }

  /**
   * Combining collected images: pad to the largest batch, optionally rescale
   * to the first image's height, pad to the most channels, place side by side.
   */
  function Combine(images: seq<Shape>, matchSize: bool, scaledWidth: (nat, nat, nat) -> nat): (r: Result<Shape, StitchError>)
    requires |images| >= 1
    ensures (exists k :: 0 <= k < |images| && images[k].batch == 0 < Max(Batches(images))) ==> r == Failure(EmptyBatch)
    ensures r.Success? ==>
      r.value.batch == Max(Batches(images)) && r.value.height == images[0].height &&
      r.value.channels == Max(Channels(images))
  {
    match PadBatches(images, Max(Batches(images)))
    case Failure(e) => Failure(e)
    case Success(batched) =>
      match MatchSizes(batched, matchSize, scaledWidth)
      case Failure(e) => Failure(e)
      case Success(sized) =>
        CombineParts(images, matchSize, scaledWidth, batched, sized);
        Concat(PadChannels(sized, Max(Channels(sized))))
  }

  /**
   * After padding and rescaling succeed, the first channel-padded image has
   * the largest batch, the first image's height and the most channels.
   */
  lemma CombineParts(images: seq<Shape>, matchSize: bool, scaledWidth: (nat, nat, nat) -> nat,
                     batched: seq<Shape>, sized: seq<Shape>)
    requires |images| >= 1
    requires PadBatches(images, Max(Batches(images))) == Success(batched)
    requires MatchSizes(batched, matchSize, scaledWidth) == Success(sized)
    ensures var first := PadChannels(sized, Max(Channels(sized)))[0];
      first.batch == Max(Batches(images)) && first.height == images[0].height &&
      first.channels == Max(Channels(images))
  {
    assert Batches(images)[0] == images[0].batch;
    assert Channels(sized) == Channels(images) by {
      forall k | 0 <= k < |images|
        ensures Channels(sized)[k] == Channels(images)[k]
      {
        assert PadBatch(images[k], Max(Batches(images))) == Success(batched[k]);
      }
    }
    assert Channels(sized)[0] == sized[0].channels;
  }

  /**
   * The node's result: fewer than two collected images return the first
   * unchanged; otherwise the collected images are combined.
   */
  function Stitch(numImages: int, matchSize: bool, image1: Shape, provided: map<string, Shape>,
                  scaledWidth: (nat, nat, nat) -> nat): (r: Result<Shape, StitchError>)
    ensures |Collect(numImages, image1, provided)| < 2 ==> r == Success(image1)
    ensures var images := Collect(numImages, image1, provided);
      |images| >= 2 && r.Success? ==>
        r.value.batch == Max(Batches(images)) && r.value.height == image1.height &&
        r.value.channels == Max(Channels(images))
  {
    var images := Collect(numImages, image1, provided);
    if |images| < 2 then Success(image1) else Combine(images, matchSize, scaledWidth)
  }

  /** Padding images that all have frames succeeds and changes nothing but their batch. */
  lemma PaddedBatches(images: seq<Shape>) returns (batched: seq<Shape>)
    requires |images| >= 1
    requires forall k :: 0 <= k < |images| ==> images[k].batch > 0
    ensures PadBatches(images, Max(Batches(images))) == Success(batched)
    ensures |batched| == |images| && Channels(batched) == Channels(images)
    ensures forall k :: 0 <= k < |batched| ==> batched[k] == images[k].(batch := Max(Batches(images)))
  {
    PadBatchesToMax(images);
    batched := PadBatches(images, Max(Batches(images))).value;
    assert Channels(batched) == Channels(images);
  }

  /** Padding both batch and channels to the largest, as `Combine` does without rescaling. */
  lemma PaddedToMax(images: seq<Shape>)
    requires |images| >= 1
    requires forall k :: 0 <= k < |images| ==> images[k].batch > 0
    ensures var batched := PadBatches(images, Max(Batches(images)));
      batched.Success? &&
      Max(Channels(batched.value)) == Max(Channels(images)) &&
      var padded := PadChannels(batched.value, Max(Channels(images)));
      |padded| == |images| &&
      forall k :: 0 <= k < |images| ==>
        padded[k] == Shape(Max(Batches(images)), images[k].height, images[k].width, Max(Channels(images)))
  {
    var batched := PaddedBatches(images);
    PadChannelsToMax(batched);
  }

  /** Images that share batch `b` and channels `c` are placed side by side exactly when their heights agree. */
  lemma ConcatUniform(padded: seq<Shape>, images: seq<Shape>, b: nat, c: nat)
    requires |padded| == |images| >= 1
    requires forall k :: 0 <= k < |images| ==> padded[k] == Shape(b, images[k].height, images[k].width, c)
    ensures Concat(padded).Success? <==> forall k :: 0 <= k < |images| ==> images[k].height == images[0].height
    ensures Concat(padded).Success? ==> Concat(padded).value == Shape(b, images[0].height, Sum(Widths(images)), c)
  {
    assert Widths(padded) == Widths(images);
    if !Aligned(padded) {
      var k :| 0 <= k < |padded| && !(padded[k].batch == padded[0].batch && padded[k].height == padded[0].height &&
                                       padded[k].channels == padded[0].channels);
      assert images[k].height != images[0].height;
    }
  }

  /**
   * Without size matching, images of one height that all have frames are
   * stitched into the largest batch, that height, the sum of the widths and
   * the most channels; images of differing heights cannot be stitched.
   */
  lemma CombineSideBySide(images: seq<Shape>, scaledWidth: (nat, nat, nat) -> nat)
    requires |images| >= 1
    requires forall k :: 0 <= k < |images| ==> images[k].batch > 0
    ensures var r := Combine(images, false, scaledWidth);
      (r.Success? <==> forall k :: 0 <= k < |images| ==> images[k].height == images[0].height) &&
      (r.Success? ==> r.value == Shape(Max(Batches(images)), images[0].height, Sum(Widths(images)), Max(Channels(images))))
  {
    PaddedToMax(images);
    var batched := PadBatches(images, Max(Batches(images))).value;
    assert MatchSizes(batched, false, scaledWidth) == Success(batched);
    var padded := PadChannels(batched, Max(Channels(images)));
    ConcatUniform(padded, images, Max(Batches(images)), Max(Channels(images)));
    assert Combine(images, false, scaledWidth) == Concat(padded);
  }

  /** Rescaling images of one batch and positive heights keeps the batch and the channels and fixes the height. */
  lemma RescaledUniform(batched: seq<Shape>, b: nat, scaledWidth: (nat, nat, nat) -> nat)
    requires |batched| >= 1
    requires forall k :: 0 <= k < |batched| ==> batched[k].batch == b && batched[k].height > 0
    ensures var sized := MatchSizes(batched, true, scaledWidth);
      sized.Success? && Channels(sized.value) == Channels(batched) &&
      forall k :: 0 <= k < |batched| ==> sized.value[k].batch == b && sized.value[k].height == batched[0].height
  {
  }

  /**
   * With size matching on, images that all have frames and height are
   * stitched at the first image's height into the largest batch and the most
   * channels.
   */
  lemma CombineMatched(images: seq<Shape>, scaledWidth: (nat, nat, nat) -> nat)
    requires |images| >= 1
    requires forall k :: 0 <= k < |images| ==> images[k].batch > 0 && images[k].height > 0
    ensures var r := Combine(images, true, scaledWidth);
      r.Success? && r.value.height == images[0].height && r.value.batch == Max(Batches(images)) &&
      r.value.channels == Max(Channels(images))
  {
    var maxBatch := Max(Batches(images));
    var batched := PaddedBatches(images);
    RescaledUniform(batched, maxBatch, scaledWidth);
    var sized := MatchSizes(batched, true, scaledWidth).value;
    var padded := PadChannels(sized, Max(Channels(sized)));
    CombineUnfolds(images, true, scaledWidth, batched, sized);
    PadChannelsToMax(sized);
    ConcatUniform(padded, sized, maxBatch, Max(Channels(sized)));
  }

  /** When padding and rescaling both succeed, combining is placing the channel-padded images side by side. */
  lemma CombineUnfolds(images: seq<Shape>, matchSize: bool, scaledWidth: (nat, nat, nat) -> nat,
                       batched: seq<Shape>, sized: seq<Shape>)
    requires |images| >= 1
    requires PadBatches(images, Max(Batches(images))) == Success(batched)
    requires MatchSizes(batched, matchSize, scaledWidth) == Success(sized)
    ensures Combine(images, matchSize, scaledWidth) == Concat(PadChannels(sized, Max(Channels(sized))))
  {
  }

  /** An image without frames next to one with frames makes combining fail. */
  lemma CombineEmptyBatchFails(images: seq<Shape>, matchSize: bool, scaledWidth: (nat, nat, nat) -> nat, j: nat, k: nat)
    requires j < |images| && k < |images|
    requires images[j].batch == 0 < images[k].batch
    ensures Combine(images, matchSize, scaledWidth) == Failure(EmptyBatch)
  {
    assert Batches(images)[k] == images[k].batch;
  }

  /**
   * At the node level: with size matching off, two or more collected images
   * of one height that all have frames give the largest batch, that height,
   * the total width and the most channels.
   */
  lemma StitchSideBySide(numImages: int, image1: Shape, provided: map<string, Shape>, scaledWidth: (nat, nat, nat) -> nat)
    requires |Collect(numImages, image1, provided)| >= 2
    requires forall k :: 0 <= k < |Collect(numImages, image1, provided)| ==>
      Collect(numImages, image1, provided)[k].batch > 0 && Collect(numImages, image1, provided)[k].height == image1.height
    ensures var images := Collect(numImages, image1, provided);
      Stitch(numImages, false, image1, provided, scaledWidth) ==
        Success(Shape(Max(Batches(images)), image1.height, Sum(Widths(images)), Max(Channels(images))))
  {
    CombineSideBySide(Collect(numImages, image1, provided), scaledWidth);
  }
}

=== FILE: node_colors.dfy ===
/**
 * The colour table of the getter node. A node whose output type is listed
 * takes that entry's foreground and background colours; any other type is
 * meant to fall back to gray. Palette entries belong to the host canvas;
 * their actual colour codes are not part of this model.
 */
module NodeColors {

  /** Named entries of the host canvas palette that the table refers to. */
  datatype Palette = Gray | Blue | Purple | Red | Brown | PaleBlue | Yellow | Green

  /** Which of a palette entry's colours is meant. */
  datatype Layer = Foreground | Background

  /**
   * A value stored in a node's `color` or `bgcolor`: one colour of a palette
   * entry, a literal colour code, or a whole palette entry (an object holding
   * several colours, which the canvas cannot paint with).
   */
  datatype Paint = Shade(entry: Palette, layer: Layer) | Code(hex: string) | WholeEntry(entry: Palette)

  datatype Colors = Colors(color: Paint, bgcolor: Paint)

  /** The foreground and background colours of a palette entry. */
  function PaletteColors(p: Palette): Colors {
    Colors(Shade(p, Foreground), Shade(p, Background))
  }

  /** The table of listed types. */
  function ColorMap(): map<string, Colors> {
    map[
      "DEFAULT" := PaletteColors(Gray),
      "MODEL" := PaletteColors(Blue),
      "LATENT" := PaletteColors(Purple),
      "VAE" := PaletteColors(Red),
      "WANVAE" := PaletteColors(Red),
      "CONDITIONING" := PaletteColors(Brown),
      "IMAGE" := PaletteColors(PaleBlue),
      "CLIP" := PaletteColors(Yellow),
      "FLOAT" := PaletteColors(Green),
      "MASK" := Colors(Code("#1c5715"), Code("#1f401b")),
      "INT" := Colors(Code("#1b4669"), Code("#29699c")),
      "CONTROL_NET" := Colors(Code("#156653"), Code("#1c453b")),
      "NOISE" := Colors(Code("#2e2e2e"), Code("#242121")),
      "GUIDER" := Colors(Code("#3c7878"), Code("#1c453b")),
      "SAMPLER" := Colors(Code("#614a4a"), Code("#3b2c2c")),
      "SIGMAS" := Colors(Code("#485248"), Code("#272e27"))
    ]
  }

  /** A single colour the canvas can paint with. */
  predicate Paintable(p: Paint) {
    !p.WholeEntry?
  }

  predicate PaintableColors(c: Colors) {
    Paintable(c.color) && Paintable(c.bgcolor)
  }

  /** The fallback as written: the whole gray palette entry lands in both fields. */
  function ColorsAsWritten(t: string): (r: Colors)
    ensures t in ColorMap() ==> r == ColorMap()[t]
    ensures t !in ColorMap() ==>
      r.color == r.bgcolor == WholeEntry(ColorMap()["DEFAULT"].color.entry) && !PaintableColors(r)
  {
    if t in ColorMap() then ColorMap()[t] else Colors(WholeEntry(Gray), WholeEntry(Gray))
  }

  /** Every listed entry names single colours. */
  lemma TableIsPaintable(t: string)
    requires t in ColorMap()
    ensures PaintableColors(ColorMap()[t])
  {
  }

  /** As written, a node gets paintable colours exactly when its type is listed. */
  lemma AsWrittenPaintableIffListed(t: string)
    ensures PaintableColors(ColorsAsWritten(t)) <==> t in ColorMap()
  {
    if t in ColorMap() {
      TableIsPaintable(t);
    }
  }

  /** The type `STRING` is unlisted, and as written its node gets no paintable colour. */
  lemma AsWrittenStringIsUnpainted()
    ensures !Paintable(ColorsAsWritten("STRING").color)
  {
    assert "STRING" !in ColorMap();
  }

  /**
   * The colours a node of type `t` gets: the table entry when `t` is listed,
   * otherwise the gray foreground and background, the same as `DEFAULT`.
   */
  function ColorsFor(t: string): (r: Colors)
    ensures PaintableColors(r)
    ensures t in ColorMap() ==> r == ColorsAsWritten(t)
    ensures t !in ColorMap() ==> r == ColorMap()["DEFAULT"]
  {
    if t in ColorMap() then
      TableIsPaintable(t);
      ColorMap()[t]
    else PaletteColors(Gray)
  }
}

=== FILE: port_sync.dfy ===
/**
 * The dynamic input-port synchroniser of the image-stitch node. When the
 * `num_images` widget changes, or a saved graph is loaded, the node's
 * `image_*` inputs are brought in line with the widget's value: surplus
 * slots are disconnected and removed from the highest number down, missing
 * ones are appended, and the node is resized to its new natural height.
 *
 * The host node is pictured as an immutable input list plus a size; the host
 * calls that tear ports down are recorded in order so that the
 * disconnect-before-remove discipline can be stated.
 */
module PortSync {
  import opened Wrappers
  import opened Text
  import opened Seqs
  import opened Slots

  type LinkId = int

  /** The type every appended image slot is declared with. */
  const ImageType: string := "IMAGE"

  /** One input slot: its name, declared type and the link attached to it, if any. */
  datatype Input = Input(name: string, portType: string, link: Option<LinkId>)

  datatype Size = Size(width: int, height: int)

  /** The parts of the host node the synchroniser reads and writes. */
  datatype PortNode = PortNode(inputs: seq<Input>, size: Size)

  /** A request that tears a port down, as issued to the host. */
  datatype HostCall =
    | DisconnectInput(slot: nat, link: LinkId)  // `disconnectInput(slot)` on a port carrying `link`
    | RemoveInput(slot: nat, port: Input)       // `removeInput(slot)`; `port` is the slot as it was found

  /** The input list being rewritten and the host calls issued so far. */
  datatype Rewrite = Rewrite(inputs: seq<Input>, calls: seq<HostCall>)

  /** The outcome of one synchronisation: the node after it and the teardown calls issued. */
  datatype Synced = Synced(node: PortNode, calls: seq<HostCall>)

  /** Counted as an image slot: the name starts with `image_`. */
  predicate IsImagePort(p: Input) {
    StartsWith(p.name, ImagePrefix)
  }

  /** Names of the image slots, in input order. */
  function ImagePortNames(s: seq<Input>): seq<string> {
    if |s| == 0 then []
    else (if IsImagePort(s[0]) then [s[0].name] else []) + ImagePortNames(s[1..])
  }

  /** The slot count the synchroniser starts from. */
  function CountImagePorts(s: seq<Input>): nat {
    |ImagePortNames(s)|
  }

  /** The inputs that are not image slots, in input order. */
  function OtherPorts(s: seq<Input>): seq<Input> {
    if |s| == 0 then []
    else (if IsImagePort(s[0]) then [] else [s[0]]) + OtherPorts(s[1..])
  }

  /**
   * Every input is either counted as an image slot or kept among the other
   * inputs; the names counted are exactly those of the inputs starting with
   * `image_`.
   */
  lemma {:induction false} ImagePortsCounted(s: seq<Input>)
    ensures CountImagePorts(s) + |OtherPorts(s)| == |s|
    ensures forall n :: n in ImagePortNames(s) ==> StartsWith(n, ImagePrefix)
    ensures forall k :: 0 <= k < |s| && IsImagePort(s[k]) ==> s[k].name in ImagePortNames(s)
  {
    if |s| > 0 {
      ImagePortsCounted(s[1..]);
      assert forall k :: 1 <= k < |s| ==> s[k] == s[1..][k - 1];
    }
  }

  /** The image slots are exactly `image_1`, ..., `image_k` in that order, for some `k`. */
  predicate WellNumbered(s: seq<Input>) {
    ImagePortNames(s) == Numbered(CountImagePorts(s))
  }

  /** The test `inp => inp.name === name`. */
  function HasName(name: string): Input -> bool {
    (p: Input) => p.name == name
  }

  /** `inputs.findIndex(inp => inp.name === name)`, absent instead of -1. */
  function FindInput(s: seq<Input>, name: string): (r: Option<nat>)
    ensures r.Some? ==> r.value < |s| && s[r.value].name == name
    ensures r.Some? ==> forall j :: 0 <= j < r.value ==> s[j].name != name
    ensures r.None? ==> forall j :: 0 <= j < |s| ==> s[j].name != name
  {
    FindFirst(s, HasName(name))
  }

  /** `addInput("image_" + i, "IMAGE")`: a fresh, unconnected image slot. */
  function NewPort(i: int): Input {
    Input(ImageName(i), ImageType, None)
  }

  /** Fresh slots numbered `lo` to `hi`. */
  function Fresh(lo: int, hi: int): seq<Input>
    requires lo <= hi + 1
  {
    seq(hi - lo + 1, n => NewPort(lo + n))
  }

  /** Slots removed by a sequence of host calls, in call order. */
  function RemovedPorts(calls: seq<HostCall>): seq<Input> {
    if |calls| == 0 then []
    else
      var last := calls[|calls| - 1];
      RemovedPorts(calls[..|calls| - 1]) + (if last.RemoveInput? then [last.port] else [])
  }

  /**
   * What the host does with one teardown call, or nothing when the call does
   * not fit the list: `disconnectInput(k)` clears the link of slot `k`, which
   * must carry that link; `removeInput(k)` deletes slot `k`, which must be
   * the recorded port, by then without a link.
   */
  function Apply(s: seq<Input>, call: HostCall): Option<seq<Input>> {
    match call
    case DisconnectInput(k, l) =>
      if k < |s| && s[k].link == Some(l) then Some(s[k := s[k].(link := None)]) else None
    case RemoveInput(k, p) =>
      if k < |s| && s[k] == p.(link := None) then Some(s[..k] + s[k + 1..]) else None
  }

  /** The host's inputs after it carries out the calls in order; absent once a call does not fit. */
  function Replay(s: seq<Input>, calls: seq<HostCall>): Option<seq<Input>>
    decreases |calls|
  {
    if |calls| == 0 then Some(s)
    else
      match Apply(s, calls[0])
      case None => None
      case Some(next) => Replay(next, calls[1..])
  }

  /**
   * Every disconnect is immediately followed by the removal of the same slot,
   * which carried that link, and every removal of a linked slot is immediately
   * preceded by the disconnect of that link.
   */
  predicate DisconnectsBeforeRemovals(calls: seq<HostCall>) {
    && (forall k :: 0 <= k < |calls| && calls[k].DisconnectInput? ==>
          && k + 1 < |calls|
          && calls[k + 1].RemoveInput?
          && calls[k + 1].slot == calls[k].slot
          && calls[k + 1].port.link == Some(calls[k].link))
    && (forall k :: 0 <= k < |calls| && calls[k].RemoveInput? && calls[k].port.link.Some? ==>
          0 < k && calls[k - 1] == DisconnectInput(calls[k].slot, calls[k].port.link.value))
  }

  /**
   * What shrinking from `orig` preserves: the other inputs and their order,
   * every slot either kept or reported removed, only image slots removed,
   * and the teardown discipline.
   */
  predicate ShrinkKeeps(orig: seq<Input>, st: Rewrite) {
    && OtherPorts(st.inputs) == OtherPorts(orig)
    && multiset(orig) == multiset(st.inputs) + multiset(RemovedPorts(st.calls))
    && (forall p :: p in RemovedPorts(st.calls) ==> IsImagePort(p))
    && DisconnectsBeforeRemovals(st.calls)
  }

  /** One pass of the shrinking loop: find `image_i` by exact name; if present, disconnect it when linked, then remove it. */
  function RemoveStep(st: Rewrite, i: int): (r: Rewrite)
    ensures FindInput(st.inputs, ImageName(i)).None? ==> r == st
    ensures FindInput(st.inputs, ImageName(i)).Some? ==>
      var j := FindInput(st.inputs, ImageName(i)).value;
      var port := st.inputs[j];
      r.inputs == st.inputs[..j] + st.inputs[j + 1..] && port.name == ImageName(i) &&
      |r.calls| == |st.calls| + (if port.link.Some? then 2 else 1) && r.calls[..|st.calls|] == st.calls &&
      r.calls[|r.calls| - 1] == RemoveInput(j, port) &&
      (port.link.Some? ==> r.calls[|st.calls|] == DisconnectInput(j, port.link.value))
  {
    match FindInput(st.inputs, ImageName(i))
    case None => st
    case Some(j) =>
      var port := st.inputs[j];
      var disconnect := if port.link.Some? then [DisconnectInput(j, port.link.value)] else [];
      Rewrite(st.inputs[..j] + st.inputs[j + 1..], st.calls + disconnect + [RemoveInput(j, port)])
  }

  /** The shrinking loop `for (let i = currentCount; i > targetCount; i--)`, resumed at `i`. */
  function Shrink(st: Rewrite, i: int, target: int): (r: Rewrite)
    ensures |st.calls| <= |r.calls| && r.calls[..|st.calls|] == st.calls
    ensures |r.inputs| <= |st.inputs|
    ensures i > target ==> |st.inputs| - |r.inputs| <= i - target
    decreases if i > target then i - target else 0
  {
    if i <= target then st else Shrink(RemoveStep(st, i), i - 1, target)
  }

  /** The growing loop `for (let i = currentCount + 1; i <= targetCount; i++)`, resumed at `i`. */
  function Grow(s: seq<Input>, i: int, target: int): (r: seq<Input>)
    ensures |r| == |s| + (if i <= target then target - i + 1 else 0)
    ensures r[..|s|] == s
    decreases if i <= target then target - i + 1 else 0
  {
    if i > target then s else Grow(s + [NewPort(i)], i + 1, target)
  }

  /** The first input named `name`, if any. */
  function FirstNamed(s: seq<Input>, name: string): Option<Input> {
    match FindInput(s, name)
    case None => None
    case Some(j) => Some(s[j])
  }

  /** For each slot number, the first input carrying that number's name, if any. */
  function FirstImage(s: seq<Input>): int -> Option<Input> {
    (n: int) => FirstNamed(s, ImageName(n))
  }

  /**
   * The slots a removal loop from `i` down to `target + 1` takes when `find`
   * says, for each number in turn, which slot (if any) answers to it.
   */
  function Taken(find: int -> Option<Input>, i: int, target: int): seq<Input>
    decreases if i > target then i - target else 0
  {
    if i <= target then []
    else (match find(i) case None => [] case Some(p) => [p]) + Taken(find, i - 1, target)
  }

  /**
   * The slots the removal loop from `i` down to `target + 1` takes, read off
   * the inputs as they stand before the loop: for each number in turn, the
   * first input named `image_<number>`, when there is one.
   */
  function Removals(s: seq<Input>, i: int, target: int): seq<Input> {
    Taken(FirstImage(s), i, target)
  }

  /** The names of a list of slots, in order. */
  function PortNames(s: seq<Input>): (r: seq<string>)
    ensures |r| == |s|
  {
    if |s| == 0 then [] else [s[0].name] + PortNames(s[1..])
  }

  /** The slot names `image_hi`, `image_{hi-1}`, ..., `image_lo`, highest first. */
  function NamesDown(hi: int, lo: int): seq<string>
    decreases if hi >= lo then hi - lo + 1 else 0
  {
    if hi < lo then [] else [ImageName(hi)] + NamesDown(hi - 1, lo)
  }

  /**
   * The port rewrite of `updateInputs`: the number of image slots alone picks
   * the branch; growing appends fresh slots after everything that was there;
   * shrinking only ever removes image slots, each one disconnected first if
   * linked; other inputs are never touched.
   */
  function UpdateInputs(inputs: seq<Input>, target: int): (r: Rewrite)
    ensures CountImagePorts(inputs) == target ==> r == Rewrite(inputs, [])
    ensures CountImagePorts(inputs) < target ==>
              r == Rewrite(inputs + Fresh(CountImagePorts(inputs) + 1, target), [])
    ensures CountImagePorts(inputs) > target ==> ShrinkKeeps(inputs, r)
    ensures CountImagePorts(inputs) > target ==>
              RemovedPorts(r.calls) == Removals(inputs, CountImagePorts(inputs), target)
    ensures OtherPorts(r.inputs) == OtherPorts(inputs)
  {
    var current := CountImagePorts(inputs);
    if current > target then
      ShrinkPreserves(inputs, Rewrite(inputs, []), current, target);
      ShrinkRemovals(Rewrite(inputs, []), current, target);
      assert RemovedPorts([]) == [];
      Shrink(Rewrite(inputs, []), current, target)
    else if current < target then
      GrowAppends(inputs, current + 1, target);
      FreshNames(current + 1, target);
      OtherPortsConcat(inputs, Fresh(current + 1, target));
      Rewrite(Grow(inputs, current + 1, target), [])
    else
      Rewrite(inputs, [])
  }

  /**
   * One synchronisation of the node: the inputs rewritten as above, then the
   * node resized keeping its width and taking the height of the size the host
   * computes for the new inputs.
   */
  function SyncNode(node: PortNode, target: int, computeSize: seq<Input> -> Size): (r: Synced)
    ensures r.node.inputs == UpdateInputs(node.inputs, target).inputs
    ensures r.calls == UpdateInputs(node.inputs, target).calls
    ensures r.node.size.width == node.size.width
    ensures r.node.size.height == computeSize(r.node.inputs).height
  {
    var rewrite := UpdateInputs(node.inputs, target);
    var computed := computeSize(rewrite.inputs);
    Synced(PortNode(rewrite.inputs, Size(node.size.width, computed.height)), rewrite.calls)
  }

  /**
   * The graph-load path, written as the loops it is made of. It issues the
   * same calls and leaves the node in the same state as the widget path.
   */
  method LoadedGraphNode(node: PortNode, target: int, computeSize: seq<Input> -> Size)
    returns (result: PortNode, calls: seq<HostCall>)
    ensures result == SyncNode(node, target, computeSize).node
    ensures calls == SyncNode(node, target, computeSize).calls
  {
    var inputs := node.inputs;
    var current := CountLoop(inputs);
    calls := [];
    if current > target {
      inputs, calls := ShrinkLoop(inputs, current, target);
    } else if current < target {
      inputs := GrowLoop(inputs, current + 1, target);
    }
    var computed := computeSize(inputs);
    result := PortNode(inputs, Size(node.size.width, computed.height));
  }

  /** The counting loop over the inputs. */
  method CountLoop(inputs: seq<Input>) returns (count: nat)
    ensures count == |ImagePortNames(inputs)|
  {
    count := 0;
    var k := 0;
    while k < |inputs|
      invariant 0 <= k <= |inputs|
      invariant count == |ImagePortNames(inputs[..k])|
    {
      ImagePortNamesConcat(inputs[..k], [inputs[k]]);
      assert inputs[..k + 1] == inputs[..k] + [inputs[k]];
      if StartsWith(inputs[k].name, ImagePrefix) {
        count := count + 1;
      }
      k := k + 1;
    }
    assert inputs[..k] == inputs;
  }

  /** The removal loop, from slot `first` down to `target + 1`. */
  method ShrinkLoop(start: seq<Input>, first: int, target: int) returns (inputs: seq<Input>, calls: seq<HostCall>)
    requires target < first
    ensures Rewrite(inputs, calls) == Shrink(Rewrite(start, []), first, target)
  {
    inputs, calls := start, [];
    var i := first;
    while i > target
      invariant target <= i
      invariant Shrink(Rewrite(inputs, calls), i, target) == Shrink(Rewrite(start, []), first, target)
      decreases i - target
    {
      inputs, calls := RemoveOne(inputs, calls, i);
      i := i - 1;
    }
  }

  /** The body of the removal loop for slot `i`. */
  method RemoveOne(inputs: seq<Input>, calls: seq<HostCall>, i: int) returns (inputs': seq<Input>, calls': seq<HostCall>)
    ensures Rewrite(inputs', calls') == RemoveStep(Rewrite(inputs, calls), i)
  {
    inputs', calls' := inputs, calls;
    var found := FindInput(inputs, ImageName(i));
    if found.Some? {
      var j := found.value;
      var port := inputs[j];
      if port.link.Some? {
        calls' := calls' + [DisconnectInput(j, port.link.value)];
      } else {
        assert calls' == calls + [];
      }
      calls' := calls' + [RemoveInput(j, port)];
      inputs' := inputs[..j] + inputs[j + 1..];
    }
  }

  /** The appending loop, from slot `first` up to `target`. */
  method GrowLoop(start: seq<Input>, first: int, target: int) returns (inputs: seq<Input>)
    requires first <= target
    ensures inputs == Grow(start, first, target)
  {
    inputs := start;
    var i := first;
    while i <= target
      invariant first <= i <= target + 1
      invariant Grow(inputs, i, target) == Grow(start, first, target)
      decreases target - i + 1
    {
      inputs := inputs + [NewPort(i)];
      i := i + 1;
    }
  }

  /**
   * Synchronising a node a second time with the same target changes nothing
   * and issues no calls, under the same conditions as `Idempotent`: the
   * computed height is that of the same inputs.
   */
  lemma SyncNodeSettles(node: PortNode, target: int, computeSize: seq<Input> -> Size)
    requires WellNumbered(node.inputs) || CountImagePorts(node.inputs) <= target
    ensures var once := SyncNode(node, target, computeSize).node;
      SyncNode(once, target, computeSize) == Synced(once, [])
  {
    Idempotent(node.inputs, target);
  }

  // ---------------------------------------------------------------------------
  // Structure of the filters

  lemma {:induction false} ImagePortNamesConcat(a: seq<Input>, b: seq<Input>)
    ensures ImagePortNames(a + b) == ImagePortNames(a) + ImagePortNames(b)
    decreases |a|
  {
    if |a| > 0 {
      assert (a + b)[1..] == a[1..] + b;
      ImagePortNamesConcat(a[1..], b);
    } else {
      assert a + b == b;
    }
  }

  lemma {:induction false} OtherPortsConcat(a: seq<Input>, b: seq<Input>)
    ensures OtherPorts(a + b) == OtherPorts(a) + OtherPorts(b)
    decreases |a|
  {
    if |a| > 0 {
      assert (a + b)[1..] == a[1..] + b;
      OtherPortsConcat(a[1..], b);
    } else {
      assert a + b == b;
    }
  }

  /** A slot whose name is listed among the image names is present by that exact name. */
  lemma {:induction false} ListedHasPort(s: seq<Input>, name: string)
    requires name in ImagePortNames(s)
    ensures FindInput(s, name).Some?
    decreases |s|
  {
    if s[0].name != name {
      ListedHasPort(s[1..], name);
      var j := FindInput(s[1..], name).value;
      assert s[j + 1].name == name;
    }
  }

  /** An image-prefixed name that is not listed is not found. */
  lemma {:induction false} ImageNotListedNotFound(s: seq<Input>, name: string)
    requires StartsWith(name, ImagePrefix)
    requires name !in ImagePortNames(s)
    ensures FindInput(s, name).None?
  {
    var f := FindInput(s, name);
    if f.Some? {
      var j := f.value;
      assert s == s[..j] + ([s[j]] + s[j + 1..]);
      ImagePortNamesConcat(s[..j], [s[j]] + s[j + 1..]);
      assert false;
    }
  }

  // ---------------------------------------------------------------------------
  // Shrinking keeps the frame and the teardown discipline

  lemma {:induction false} RemovedPortsAppend(calls: seq<HostCall>, d: seq<HostCall>, port: Input, j: nat)
    requires |d| == 0 || (|d| == 1 && d[0].DisconnectInput?)
    ensures RemovedPorts(calls + d + [RemoveInput(j, port)]) == RemovedPorts(calls) + [port]
  {
    var all := calls + d + [RemoveInput(j, port)];
    assert all[..|all| - 1] == calls + d;
    if |d| == 1 {
      assert (calls + d)[..|calls|] == calls;
    } else {
      assert calls + d == calls;
    }
  }

  lemma {:induction false} AppendRemoval(calls: seq<HostCall>, j: nat, port: Input)
    requires DisconnectsBeforeRemovals(calls)
    ensures var d := if port.link.Some? then [DisconnectInput(j, port.link.value)] else [];
            DisconnectsBeforeRemovals(calls + d + [RemoveInput(j, port)])
  {
    var d := if port.link.Some? then [DisconnectInput(j, port.link.value)] else [];
    var all := calls + d + [RemoveInput(j, port)];
    forall k | 0 <= k < |all| && all[k].DisconnectInput?
      ensures k + 1 < |all| && all[k + 1].RemoveInput? && all[k + 1].slot == all[k].slot
              && all[k + 1].port.link == Some(all[k].link)
    {
      if k < |calls| {
        assert calls[k].DisconnectInput?;
        assert all[k + 1] == calls[k + 1];
      }
    }
    forall k | 0 <= k < |all| && all[k].RemoveInput? && all[k].port.link.Some?
      ensures 0 < k && all[k - 1] == DisconnectInput(all[k].slot, all[k].port.link.value)
    {
      if k < |calls| {
        assert calls[k].RemoveInput?;
        assert all[k - 1] == calls[k - 1];
      }
    }
  }

  /** Removing the image slot at `j` leaves the other inputs as they were and accounts for the slot. */
  lemma {:induction false} RemoveAtFrame(s: seq<Input>, j: nat)
    requires j < |s| && IsImagePort(s[j])
    ensures OtherPorts(s[..j] + s[j + 1..]) == OtherPorts(s)
    ensures multiset(s) == multiset(s[..j] + s[j + 1..]) + multiset{s[j]}
  {
    assert s == s[..j] + ([s[j]] + s[j + 1..]);
    OtherPortsConcat(s[..j], [s[j]] + s[j + 1..]);
    OtherPortsConcat([s[j]], s[j + 1..]);
    OtherPortsConcat(s[..j], s[j + 1..]);
  }

  /** Moving slot `j` from the inputs to the removed list keeps the accounting and removes only image slots. */
  lemma {:induction false} MoveToRemoved(orig: seq<Input>, s: seq<Input>, removed: seq<Input>, j: nat)
    requires j < |s| && IsImagePort(s[j])
    requires multiset(orig) == multiset(s) + multiset(removed)
    requires forall p :: p in removed ==> IsImagePort(p)
    ensures multiset(orig) == multiset(s[..j] + s[j + 1..]) + multiset(removed + [s[j]])
    ensures forall p :: p in removed + [s[j]] ==> IsImagePort(p)
  {
    RemoveAtFrame(s, j);
  }

  lemma {:induction false} RemoveStepKeeps(orig: seq<Input>, st: Rewrite, i: int)
    requires ShrinkKeeps(orig, st)
    ensures ShrinkKeeps(orig, RemoveStep(st, i))
  {
    var f := FindInput(st.inputs, ImageName(i));
    if f.Some? {
      var s := st.inputs;
      var j := f.value;
      var port := s[j];
      var d := if port.link.Some? then [DisconnectInput(j, port.link.value)] else [];
      var next := RemoveStep(st, i);
      assert next.inputs == s[..j] + s[j + 1..];
      assert next.calls == st.calls + d + [RemoveInput(j, port)];
      assert IsImagePort(port);
      RemoveAtFrame(s, j);
      RemovedPortsAppend(st.calls, d, port, j);
      MoveToRemoved(orig, s, RemovedPorts(st.calls), j);
      AppendRemoval(st.calls, j, port);
    }
  }

  lemma {:induction false} ShrinkPreserves(orig: seq<Input>, st: Rewrite, i: int, target: int)
    requires ShrinkKeeps(orig, st)
    ensures ShrinkKeeps(orig, Shrink(st, i, target))
    decreases if i > target then i - target else 0
  {
    if i > target {
      RemoveStepKeeps(orig, st, i);
      ShrinkPreserves(orig, RemoveStep(st, i), i - 1, target);
    }
  }

  // ---------------------------------------------------------------------------
  // Replaying the calls on the host

  /** Replaying two runs of calls is replaying the first, then the second on its outcome. */
  lemma {:induction false} ReplayAppend(s: seq<Input>, a: seq<HostCall>, b: seq<HostCall>, m: seq<Input>)
    requires Replay(s, a) == Some(m)
    ensures Replay(s, a + b) == Replay(m, b)
    decreases |a|
  {
    if |a| == 0 {
      assert a + b == b;
    } else {
      assert (a + b)[0] == a[0];
      assert (a + b)[1..] == a[1..] + b;
      ReplayAppend(Apply(s, a[0]).value, a[1..], b, m);
    }
  }

  /** The calls one pass issues, carried out by the host, turn its inputs into the pass's inputs. */
  lemma RemoveStepReplays(st: Rewrite, i: int)
    ensures var next := RemoveStep(st, i);
      |st.calls| <= |next.calls| && Replay(st.inputs, next.calls[|st.calls|..]) == Some(next.inputs)
  {
    var next := RemoveStep(st, i);
    match FindInput(st.inputs, ImageName(i))
    case None =>
      assert next.calls[|st.calls|..] == [];
    case Some(j) =>
      var s, port := st.inputs, st.inputs[j];
      var rest := s[..j] + s[j + 1..];
      if port.link.Some? {
        var s' := s[j := port.(link := None)];
        assert s'[..j] + s'[j + 1..] == rest;
        assert Apply(s, DisconnectInput(j, port.link.value)) == Some(s');
        assert Apply(s', RemoveInput(j, port)) == Some(rest);
        var d, rm := DisconnectInput(j, port.link.value), RemoveInput(j, port);
        assert Replay(rest, []) == Some(rest);
        assert Replay(s', [rm]) == Some(rest);
        assert [d, rm][1..] == [rm];
        assert Replay(s, [d, rm]) == Some(rest);
        assert next.calls[|st.calls|..] == [d, rm];
      } else {
        assert Apply(s, RemoveInput(j, port)) == Some(rest);
        assert Replay(rest, []) == Some(rest);
        assert next.calls[|st.calls|..] == [RemoveInput(j, port)];
      }
  }

  /** The calls the whole removal loop issues, carried out by the host, give the loop's inputs. */
  lemma {:induction false} ShrinkReplays(st: Rewrite, i: int, target: int)
    ensures var r := Shrink(st, i, target);
      Replay(st.inputs, r.calls[|st.calls|..]) == Some(r.inputs)
    decreases if i > target then i - target else 0
  {
    var r := Shrink(st, i, target);
    if i <= target {
      assert r.calls[|st.calls|..] == [];
    } else {
      var next := RemoveStep(st, i);
      assert r == Shrink(next, i - 1, target);
      ShrinkReplays(next, i - 1, target);
      RemoveStepReplays(st, i);
      ExtensionSplit(st.calls, next.calls, r.calls);
      ReplayAppend(st.inputs, next.calls[|st.calls|..], r.calls[|next.calls|..], next.inputs);
    }
  }

  /**
   * The host, carrying out the recorded calls one by one, ends with exactly
   * the rewritten inputs: every disconnect finds its link on the slot it
   * names, and every removal finds the recorded port, unlinked, at the index
   * it names. Growing issues no teardown calls; its slots are appended.
   */
  lemma UpdateInputsReplays(inputs: seq<Input>, target: int)
    ensures var r := UpdateInputs(inputs, target);
      CountImagePorts(inputs) >= target ==> Replay(inputs, r.calls) == Some(r.inputs)
    ensures var r := UpdateInputs(inputs, target);
      CountImagePorts(inputs) < target ==> Replay(inputs, r.calls) == Some(inputs) && r.inputs[..|inputs|] == inputs
  {
    var r := UpdateInputs(inputs, target);
    if CountImagePorts(inputs) > target {
      ShrinkReplays(Rewrite(inputs, []), CountImagePorts(inputs), target);
      assert r.calls[0..] == r.calls;
    }
  }

  // ---------------------------------------------------------------------------
  // Which slots shrinking removes, and in what order

  /** Removing an input with another name does not change which input a name finds first. */
  lemma FirstNamedAfterRemoval(s: seq<Input>, j: nat, name: string)
    requires j < |s| && s[j].name != name
    ensures FirstNamed(s[..j] + s[j + 1..], name) == FirstNamed(s, name)
  {
    FindFirstSkips(s, j, HasName(name));
  }

  /** Two lookups that agree on every number down from `n` take the same slots. */
  lemma {:induction false} TakenAgree(f: int -> Option<Input>, g: int -> Option<Input>, n: int, target: int)
    requires forall m :: m <= n ==> f(m) == g(m)
    ensures Taken(f, n, target) == Taken(g, n, target)
    decreases if n > target then n - target else 0
  {
    if n > target {
      TakenAgree(f, g, n - 1, target);
    }
  }

  /** Removing a slot named `image_i` leaves the slots the loop takes below `i` as they were. */
  lemma RemovalsAfterRemoval(s: seq<Input>, j: nat, i: int, n: int, target: int)
    requires j < |s| && s[j].name == ImageName(i) && n < i
    ensures Removals(s[..j] + s[j + 1..], n, target) == Removals(s, n, target)
  {
    var r := s[..j] + s[j + 1..];
    forall m | m <= n
      ensures FirstImage(r)(m) == FirstImage(s)(m)
    {
      ImageNameInjective(m, i);
      FirstNamedAfterRemoval(s, j, ImageName(m));
    }
    TakenAgree(FirstImage(r), FirstImage(s), n, target);
  }

  /** One pass moves the slot it takes, if any, from the slots still to be taken to the removed ones. */
  lemma StepRemovals(st: Rewrite, i: int, target: int)
    requires i > target
    ensures var next := RemoveStep(st, i);
      RemovedPorts(next.calls) + Removals(next.inputs, i - 1, target)
        == RemovedPorts(st.calls) + Removals(st.inputs, i, target)
  {
    match FindInput(st.inputs, ImageName(i))
    case None =>
      assert Removals(st.inputs, i, target) == [] + Removals(st.inputs, i - 1, target);
    case Some(j) =>
      var port := st.inputs[j];
      var d := if port.link.Some? then [DisconnectInput(j, port.link.value)] else [];
      RemovedPortsAppend(st.calls, d, port, j);
      RemovalsAfterRemoval(st.inputs, j, i, i - 1, target);
      AppendAssoc(RemovedPorts(st.calls), [port], Removals(st.inputs, i - 1, target));
  }

  /**
   * The removal loop removes, highest number first, the first input named
   * `image_i` for each `i` that the inputs held before the loop started.
   */
  lemma {:induction false} ShrinkRemovals(st: Rewrite, i: int, target: int)
    ensures RemovedPorts(Shrink(st, i, target).calls) == RemovedPorts(st.calls) + Removals(st.inputs, i, target)
    decreases if i > target then i - target else 0
  {
    if i <= target {
      assert RemovedPorts(st.calls) + [] == RemovedPorts(st.calls);
    } else {
      var next := RemoveStep(st, i);
      ShrinkRemovals(next, i - 1, target);
      StepRemovals(st, i, target);
      AppendAssoc(RemovedPorts(st.calls), [], []);
    }
  }

  /** No slot number below 1 names one of `image_1..image_k`. */
  lemma NotNumbered(i: int, k: nat)
    requires i < 1
    ensures ImageName(i) !in Numbered(k)
  {
    forall m | 0 <= m < k
      ensures Numbered(k)[m] != ImageName(i)
    {
      ImageNameInjective(m + 1, i);
    }
  }

  /**
   * When each of `image_1..image_i` is found and no lower number is, the loop
   * from `i` takes `image_i` down to `image_{target+1}` (never below `image_1`).
   */
  lemma {:induction false} TakenNamed(find: int -> Option<Input>, i: int, target: int)
    requires forall n :: 1 <= n <= i ==> find(n).Some? && find(n).value.name == ImageName(n)
    requires forall n :: n < 1 ==> find(n).None?
    ensures PortNames(Taken(find, i, target)) == NamesDown(i, if target < 0 then 1 else target + 1)
    decreases if i > target then i - target else 0
  {
    if i > target {
      TakenNamed(find, i - 1, target);
      if i >= 1 {
        var rest := Taken(find, i - 1, target);
        assert Taken(find, i, target) == [find(i).value] + rest;
        assert ([find(i).value] + rest)[1..] == rest;
      } else {
        assert Taken(find, i, target) == [] + Taken(find, i - 1, target);
      }
    }
  }

  /** With slots `image_1..image_k`, the loop from `i <= k` takes `image_i` down to `image_{target+1}` (never below `image_1`). */
  lemma NumberedRemovals(s: seq<Input>, i: int, target: int)
    requires WellNumbered(s) && i <= CountImagePorts(s)
    ensures PortNames(Removals(s, i, target)) == NamesDown(i, if target < 0 then 1 else target + 1)
  {
    forall n | 1 <= n <= i
      ensures FirstImage(s)(n).Some? && FirstImage(s)(n).value.name == ImageName(n)
    {
      NumberedFound(s, n);
    }
    forall n | n < 1
      ensures FirstImage(s)(n).None?
    {
      NumberedAbsent(s, n);
    }
    TakenNamed(FirstImage(s), i, target);
  }

  /** With slots `image_1..image_k`, every `image_i` with `1 <= i <= k` is found. */
  lemma NumberedFound(s: seq<Input>, i: int)
    requires WellNumbered(s) && 1 <= i <= CountImagePorts(s)
    ensures FirstNamed(s, ImageName(i)).Some? && FirstNamed(s, ImageName(i)).value.name == ImageName(i)
  {
    assert Numbered(CountImagePorts(s))[i - 1] == ImageName(i);
    ListedHasPort(s, ImageName(i));
  }

  /** With slots `image_1..image_k`, no `image_i` with `i < 1` is found. */
  lemma NumberedAbsent(s: seq<Input>, i: int)
    requires WellNumbered(s) && i < 1
    ensures FirstNamed(s, ImageName(i)).None?
  {
    NotNumbered(i, CountImagePorts(s));
    ImageNotListedNotFound(s, ImageName(i));
  }

  /**
   * Shrinking gap-free slots `image_1..image_k` removes `image_k`, then
   * `image_{k-1}`, and so on down to `image_{target+1}`, each exactly once.
   */
  lemma ShrinkRemovesFromTop(inputs: seq<Input>, target: int)
    requires WellNumbered(inputs) && CountImagePorts(inputs) > target
    ensures PortNames(RemovedPorts(UpdateInputs(inputs, target).calls))
              == NamesDown(CountImagePorts(inputs), if target < 0 then 1 else target + 1)
  {
    NumberedRemovals(inputs, CountImagePorts(inputs), target);
  }

  // ---------------------------------------------------------------------------
  // Growing appends fresh slots

  lemma {:induction false} FreshCons(lo: int, hi: int)
    requires lo <= hi
    ensures Fresh(lo, hi) == [NewPort(lo)] + Fresh(lo + 1, hi)
  {
    var f := Fresh(lo, hi);
    assert |f| == 1 + |Fresh(lo + 1, hi)|;
    forall n | 0 <= n < |f|
      ensures f[n] == ([NewPort(lo)] + Fresh(lo + 1, hi))[n]
    {
      if n > 0 {
        assert Fresh(lo + 1, hi)[n - 1] == NewPort(lo + 1 + (n - 1));
      }
    }
  }

  lemma {:induction false} GrowAppends(s: seq<Input>, i: int, target: int)
    requires i <= target + 1
    ensures Grow(s, i, target) == s + Fresh(i, target)
    decreases target - i + 1
  {
    if i <= target {
      var port, rest := NewPort(i), Fresh(i + 1, target);
      GrowAppends(s + [port], i + 1, target);
      FreshCons(i, target);
      AppendAssoc(s, [port], rest);
    } else {
      assert Fresh(i, target) == [];
    }
  }

  lemma {:induction false} FreshNames(lo: int, hi: int)
    requires lo <= hi + 1
    ensures ImagePortNames(Fresh(lo, hi)) == NamesBetween(lo, hi)
    ensures OtherPorts(Fresh(lo, hi)) == []
    decreases hi - lo + 1
  {
    if lo <= hi {
      FreshNames(lo + 1, hi);
      FreshCons(lo, hi);
      var f := Fresh(lo, hi);
      assert f[0] == NewPort(lo) && f[1..] == Fresh(lo + 1, hi);
      assert IsImagePort(f[0]);
      assert NamesBetween(lo, hi) == [ImageName(lo)] + NamesBetween(lo + 1, hi);
    } else {
      assert Fresh(lo, hi) == [];
    }
  }

  // ---------------------------------------------------------------------------
  // Convergence and idempotence

  /** The image names on either side of slot `j`, with and without it. */
  lemma {:induction false} SplitAt(s: seq<Input>, j: nat)
    requires j < |s|
    ensures ImagePortNames(s) == ImagePortNames(s[..j]) + ImagePortNames([s[j]]) + ImagePortNames(s[j + 1..])
    ensures ImagePortNames(s[..j] + s[j + 1..]) == ImagePortNames(s[..j]) + ImagePortNames(s[j + 1..])
  {
    assert s == s[..j] + ([s[j]] + s[j + 1..]);
    ImagePortNamesConcat(s[..j], [s[j]] + s[j + 1..]);
    ImagePortNamesConcat([s[j]], s[j + 1..]);
    ImagePortNamesConcat(s[..j], s[j + 1..]);
  }

  /** Removing `image_i` from slots numbered `image_1..image_i` leaves `image_1..image_{i-1}`. */
  lemma {:induction false} RemoveNumberedLast(s: seq<Input>, i: int)
    requires i >= 1
    requires ImagePortNames(s) == Numbered(i)
    ensures FindInput(s, ImageName(i)).Some?
    ensures var j := FindInput(s, ImageName(i)).value;
            ImagePortNames(s[..j] + s[j + 1..]) == Numbered(i - 1)
  {
    assert Numbered(i)[i - 1] == ImageName(i);
    ListedHasPort(s, ImageName(i));
    var j := FindInput(s, ImageName(i)).value;
    SplitAt(s, j);
    assert ImagePortNames([s[j]]) == [ImageName(i)];
    NumberedLast(ImagePortNames(s[..j]), ImagePortNames(s[j + 1..]), i);
  }

  lemma {:induction false} ShrinkConverges(st: Rewrite, i: int, target: int)
    requires target <= i
    requires ImagePortNames(st.inputs) == Numbered(if i < 0 then 0 else i)
    ensures ImagePortNames(Shrink(st, i, target).inputs) == Numbered(if target < 0 then 0 else target)
    decreases i - target
  {
    if i > target {
      if i >= 1 {
        RemoveNumberedLast(st.inputs, i);
      } else {
        ImageNotListedNotFound(st.inputs, ImageName(i));
      }
      ShrinkConverges(RemoveStep(st, i), i - 1, target);
    }
  }

  lemma {:induction false} ShrinkWithoutImages(st: Rewrite, i: int, target: int)
    requires ImagePortNames(st.inputs) == []
    ensures Shrink(st, i, target) == st
    decreases if i > target then i - target else 0
  {
    if i > target {
      ImageNotListedNotFound(st.inputs, ImageName(i));
      ShrinkWithoutImages(st, i - 1, target);
    }
  }

  /** Grown slots continue the numbering: `image_1..image_k` grows to `image_1..image_target`. */
  lemma {:induction false} GrowConverges(inputs: seq<Input>, target: int)
    requires CountImagePorts(inputs) < target
    ensures var k := CountImagePorts(inputs);
            ImagePortNames(inputs + Fresh(k + 1, target))
              == ImagePortNames(inputs) + NamesBetween(k + 1, target)
  {
    var k := CountImagePorts(inputs);
    FreshNames(k + 1, target);
    ImagePortNamesConcat(inputs, Fresh(k + 1, target));
  }

  /**
   * Convergence: when the image slots are `image_1..image_k`, one run leaves
   * exactly `image_1..image_target` (none at all for a negative target).
   */
  lemma {:induction false} Converges(inputs: seq<Input>, target: int)
    requires WellNumbered(inputs)
    ensures ImagePortNames(UpdateInputs(inputs, target).inputs) == Numbered(if target < 0 then 0 else target)
  {
    var k := CountImagePorts(inputs);
    if k > target {
      ShrinkingConverges(inputs, target);
    } else if k < target {
      GrowingConverges(inputs, target);
    }
  }

  /** The shrinking case of `Converges`. */
  lemma ShrinkingConverges(inputs: seq<Input>, target: int)
    requires WellNumbered(inputs) && CountImagePorts(inputs) > target
    ensures ImagePortNames(UpdateInputs(inputs, target).inputs) == Numbered(if target < 0 then 0 else target)
  {
    var k := CountImagePorts(inputs);
    assert UpdateInputs(inputs, target) == Shrink(Rewrite(inputs, []), k, target);
    ShrinkConverges(Rewrite(inputs, []), k, target);
  }

  /** The growing case of `Converges`. */
  lemma GrowingConverges(inputs: seq<Input>, target: int)
    requires WellNumbered(inputs) && CountImagePorts(inputs) < target
    ensures ImagePortNames(UpdateInputs(inputs, target).inputs) == Numbered(target)
  {
    var k := CountImagePorts(inputs);
    GrowConverges(inputs, target);
    assert Numbered(k) + NamesBetween(k + 1, target) == Numbered(target);
  }

  /**
   * Idempotence: a second run with the same target changes nothing, provided
   * the slots were numbered without gaps or the first run did not shrink.
   */
  lemma {:induction false} Idempotent(inputs: seq<Input>, target: int)
    requires WellNumbered(inputs) || CountImagePorts(inputs) <= target
    ensures var once := UpdateInputs(inputs, target).inputs;
            UpdateInputs(once, target) == Rewrite(once, [])
  {
    var once := UpdateInputs(inputs, target).inputs;
    var k := CountImagePorts(inputs);
    if WellNumbered(inputs) {
      Converges(inputs, target);
      if target < 0 {
        ShrinkWithoutImages(Rewrite(once, []), 0, target);
      }
    } else if k < target {
      GrowConverges(inputs, target);
    }
  }

  /**
   * Without gap-free numbering a second run can still remove slots: three
   * inputs all named `image_2` lose one on the first run and another on the
   * second.
   */
  lemma {:induction false} IdempotenceNeedsNumbering()
    ensures var dup := Input(ImageName(2), ImageType, None);
            var once := UpdateInputs([dup, dup, dup], 1).inputs;
            once == [dup, dup] && UpdateInputs(once, 1).inputs == [dup]
  {
    var dup := Input(ImageName(2), ImageType, None);
    DuplicateRuns(dup, [dup, dup, dup]);
    DuplicateRuns(dup, [dup, dup]);
  }

  /** One run with target 1 over two or three copies of `image_2` removes exactly one copy. */
  lemma {:induction false} DuplicateRuns(dup: Input, s: seq<Input>)
    requires dup == Input(ImageName(2), ImageType, None)
    requires s == [dup, dup] || s == [dup, dup, dup]
    ensures UpdateInputs(s, 1).inputs == s[1..]
  {
    assert IsImagePort(dup);
    assert ImagePortNames([dup]) == [dup.name];
    assert ImagePortNames([dup, dup]) == [dup.name] + ImagePortNames([dup]);
    assert ImagePortNames([dup, dup, dup]) == [dup.name] + ImagePortNames([dup, dup]);
    var n := |s|;
    assert CountImagePorts(s) == n;
    var s0 := Rewrite(s, []);
    assert FindInput(s, ImageName(2)) == Some(0);
    var removed := RemoveStep(s0, 2);
    assert removed.inputs == s[1..];
    assert Shrink(removed, 1, 1) == removed;
    if n == 3 {
      assert ImageName(3) != ImageName(2) by { ImageNameInjective(3, 2); }
      assert FindInput(s, ImageName(3)).None?;
      assert RemoveStep(s0, 3) == s0;
      assert Shrink(s0, 3, 1) == Shrink(s0, 2, 1);
    }
    assert Shrink(s0, 2, 1) == Shrink(removed, 1, 1);
  }
}

=== FILE: seqs.dfy ===
/** Searching sequences the way `Array.prototype.find` and `findIndex` do, and one fact about appending. */
module Seqs {
  import opened Wrappers

  /** The index of the first element satisfying `p`, or `None` when no element does. */
  function FindFirst<T>(s: seq<T>, p: T -> bool): (r: Option<nat>)
    ensures r.Some? ==> r.value < |s| && p(s[r.value])
    ensures r.Some? ==> forall j :: 0 <= j < r.value ==> !p(s[j])
    ensures r.None? ==> forall j :: 0 <= j < |s| ==> !p(s[j])
  {
    if |s| == 0 then None
    else if p(s[0]) then Some(0)
    else match FindFirst(s[1..], p)
      case None => None
      case Some(j) => Some(j + 1)
  }

  /** Appending is associative; stated once so that proofs can name the step. */
  lemma AppendAssoc<T>(a: seq<T>, b: seq<T>, c: seq<T>)
    ensures (a + b) + c == a + (b + c)
  {
  }

  /** What a run of extensions adds past a prefix is what each extension adds, in turn. */
  lemma ExtensionSplit<T>(a: seq<T>, b: seq<T>, c: seq<T>)
    requires |a| <= |b| <= |c| && b[..|a|] == a && c[..|b|] == b
    ensures c[|a|..] == b[|a|..] + c[|b|..]
  {
  }

  /**
   * Deleting an element that does not satisfy `p` does not change which
   * element the search finds, only possibly its position.
   */
  lemma FindFirstSkips<T>(s: seq<T>, j: nat, p: T -> bool)
    requires j < |s| && !p(s[j])
    ensures var r := s[..j] + s[j + 1..];
      FindFirst(r, p).Some? == FindFirst(s, p).Some? &&
      (FindFirst(s, p).Some? ==> r[FindFirst(r, p).value] == s[FindFirst(s, p).value])
  {
    var r := s[..j] + s[j + 1..];
    assert |r| == |s| - 1;
    match FindFirst(s, p)
    case None =>
      forall k | 0 <= k < |r|
        ensures !p(r[k])
      {
        assert r[k] == s[if k < j then k else k + 1];
      }
    case Some(m) =>
      var m' := if m < j then m else m - 1;
      assert r[m'] == s[m];
      forall k | 0 <= k < m'
        ensures !p(r[k])
      {
        assert r[k] == s[if k < j then k else k + 1];
      }
      assert FindFirst(r, p).value == m';
  }
}

=== FILE: slots.dfy ===
/**
 * Names of the numbered image slots. The front-end renders them with the
 * template literal `image_${i}` and the back-end with the f-string
 * `f"image_{i}"`; both give the prefix followed by the decimal number.
 */
module Slots {
  import opened Text

  const ImagePrefix: string := "image_"

  /** The name of image slot `i`. */
  function ImageName(i: int): (name: string)
    ensures StartsWith(name, ImagePrefix)
    ensures name[|ImagePrefix|..] == IntToString(i)
  {
    ImagePrefix + IntToString(i)
  }

  /** Distinct slot numbers name distinct slots. */
  lemma ImageNameInjective(i: int, j: int)
    ensures ImageName(i) == ImageName(j) ==> i == j
  {
    IntToStringInjective(i, j);
  }

  /** The names `image_1`, ..., `image_k` in order. */
  function Numbered(k: nat): seq<string> {
    seq(k, n => ImageName(n + 1))
  }

  /** The slots numbered `lo` to `hi`. */
  function NamesBetween(lo: int, hi: int): seq<string>
    requires lo <= hi + 1
  {
    seq(hi - lo + 1, n => ImageName(lo + n))
  }

  /** The slots numbered `lo` to `hi + 1` are those numbered `lo` to `hi`, then `image_{hi+1}`. */
  lemma NamesBetweenSnoc(lo: int, hi: int)
    requires lo <= hi + 1
    ensures NamesBetween(lo, hi + 1) == NamesBetween(lo, hi) + [ImageName(hi + 1)]
  {
    var longer, shorter := NamesBetween(lo, hi + 1), NamesBetween(lo, hi);
    assert |longer| == |shorter| + 1;
    forall n | 0 <= n < |shorter|
      ensures longer[n] == shorter[n]
    {
    }
  }

  /** The slots `image_1` to `image_hi` are `image_1` followed by those numbered 2 to `hi`. */
  lemma NumberedFromTwo(hi: int)
    requires hi >= 1
    ensures Numbered(hi) == [ImageName(1)] + NamesBetween(2, hi)
  {
    var all, tail := Numbered(hi), NamesBetween(2, hi);
    forall n | 1 <= n < hi
      ensures all[n] == tail[n - 1]
    {
    }
  }

  /** No slot name repeats among `image_1` to `image_n`. */
  lemma NumberedDistinct(n: nat)
    ensures forall j, k :: 0 <= j < k < n ==> Numbered(n)[j] != Numbered(n)[k]
  {
    forall j, k | 0 <= j < k < n
      ensures Numbered(n)[j] != Numbered(n)[k]
    {
      ImageNameInjective(j + 1, k + 1);
    }
  }

  /** `image_i` occurs in `image_1..image_i` only as the last name. */
  lemma NumberedLast(a: seq<string>, b: seq<string>, i: int)
    requires i >= 1
    requires a + [ImageName(i)] + b == Numbered(i)
    ensures b == [] && a == Numbered(i - 1)
  {
    var k := |a|;
    assert Numbered(i)[k] == ImageName(k + 1);
    ImageNameInjective(k + 1, i);
    assert a == Numbered(i)[..i - 1];
  }
}

=== FILE: sorting.dfy ===
/**
 * The order `Array.prototype.sort` uses when no comparator is given: strings
 * compared character by character, a proper prefix before its extensions.
 * Any algorithm that sorts by a total order yields the same sequence, so one
 * insertion sort stands for the host's.
 */
module Sorting {

  /** `a` sorts no later than `b`. */
  predicate LexLe(a: string, b: string)
    decreases |a|
  {
    |a| == 0 || (|b| > 0 && (a[0] < b[0] || (a[0] == b[0] && LexLe(a[1..], b[1..]))))
  }

  lemma {:induction false} LexLeReflexive(a: string)
    ensures LexLe(a, a)
    decreases |a|
  {
    if |a| > 0 {
      LexLeReflexive(a[1..]);
    }
  }

  lemma {:induction false} LexLeTotal(a: string, b: string)
    ensures LexLe(a, b) || LexLe(b, a)
    decreases |a|
  {
    if |a| > 0 && |b| > 0 && a[0] == b[0] {
      LexLeTotal(a[1..], b[1..]);
    }
  }

  lemma {:induction false} LexLeTransitive(a: string, b: string, c: string)
    requires LexLe(a, b) && LexLe(b, c)
    ensures LexLe(a, c)
    decreases |a|
  {
    if |a| > 0 && a[0] == b[0] && b[0] == c[0] {
      LexLeTransitive(a[1..], b[1..], c[1..]);
    }
  }

  lemma {:induction false} LexLeAntisymmetric(a: string, b: string)
    requires LexLe(a, b) && LexLe(b, a)
    ensures a == b
    decreases |a|
  {
    if |a| > 0 {
      LexLeAntisymmetric(a[1..], b[1..]);
      assert a == [a[0]] + a[1..] && b == [b[0]] + b[1..];
    }
  }

  predicate Sorted(s: seq<string>) {
    forall i, j :: 0 <= i < j < |s| ==> LexLe(s[i], s[j])
  }

  /** Every element of `s` sorts no earlier than `h`. */
  predicate Bounds(h: string, s: seq<string>) {
    forall k :: 0 <= k < |s| ==> LexLe(h, s[k])
  }

  /** A sorted sequence stays sorted behind an element that bounds it. */
  lemma ConsSorted(h: string, t: seq<string>)
    requires Sorted(t) && Bounds(h, t)
    ensures Sorted([h] + t)
  {
    var r := [h] + t;
    forall i, j | 0 <= i < j < |r|
      ensures LexLe(r[i], r[j])
    {
      assert r[j] == t[j - 1];
      if i > 0 {
        assert r[i] == t[i - 1];
      }
    }
  }

  /** A lower bound of the head of a sorted sequence bounds all of it. */
  lemma BoundsSorted(x: string, s: seq<string>)
    requires Sorted(s) && |s| > 0 && LexLe(x, s[0])
    ensures Bounds(x, s)
  {
    forall j | 0 <= j < |s|
      ensures LexLe(x, s[j])
    {
      if j > 0 { LexLeTransitive(x, s[0], s[j]); }
    }
  }

  /** A bound of every element of `s` and of `x` bounds any arrangement of them. */
  lemma BoundsArrangement(h: string, s: seq<string>, x: string, r: seq<string>)
    requires Bounds(h, s) && LexLe(h, x)
    requires multiset(r) == multiset(s) + multiset{x}
    ensures Bounds(h, r)
  {
    forall k | 0 <= k < |r|
      ensures LexLe(h, r[k])
    {
      assert r[k] in multiset(r);
      if r[k] != x {
        assert r[k] in multiset(s);
        var i :| 0 <= i < |s| && s[i] == r[k];
      }
    }
  }

  /** `s` with `x` placed before the first element it sorts no later than. */
  function Insert(x: string, s: seq<string>): (r: seq<string>)
    requires Sorted(s)
    ensures Sorted(r)
    ensures multiset(r) == multiset(s) + multiset{x}
  {
    if |s| == 0 then [x]
    else if LexLe(x, s[0]) then
      BoundsSorted(x, s);
      ConsSorted(x, s);
      [x] + s
    else
      LexLeTotal(x, s[0]);
      assert Sorted(s[1..]);
      var rest := Insert(x, s[1..]);
      assert Bounds(s[0], s[1..]) by {
        forall k | 0 <= k < |s[1..]|
          ensures LexLe(s[0], s[1..][k])
        {
          assert s[1..][k] == s[k + 1];
        }
      }
      BoundsArrangement(s[0], s[1..], x, rest);
      ConsSorted(s[0], rest);
      assert s == [s[0]] + s[1..];
      [s[0]] + rest
  }

  /** The elements of `s` in ascending order, duplicates kept. */
  function Sort(s: seq<string>): (r: seq<string>)
    ensures Sorted(r)
    ensures multiset(r) == multiset(s)
  {
    if |s| == 0 then []
    else
      assert s == [s[0]] + s[1..];
      Insert(s[0], Sort(s[1..]))
  }

  /** The head of a sorted sequence sorts no later than any of its elements. */
  lemma SortedHeadIsLeast(s: seq<string>, x: string)
    requires Sorted(s)
    requires x in multiset(s)
    ensures LexLe(s[0], x)
  {
    var j :| 0 <= j < |s| && s[j] == x;
    if j == 0 { LexLeReflexive(x); }
  }

  /** Dropping the head of a sorted sequence removes one copy of it. */
  lemma SortedTail(a: seq<string>)
    requires Sorted(a) && |a| > 0
    ensures Sorted(a[1..])
    ensures multiset(a[1..]) == multiset(a) - multiset{a[0]}
  {
    assert a == [a[0]] + a[1..];
  }

  /** Two sorted arrangements of the same elements start alike. */
  lemma SortedHeads(a: seq<string>, b: seq<string>)
    requires Sorted(a) && Sorted(b)
    requires multiset(a) == multiset(b) && |a| > 0
    ensures |b| > 0 && a[0] == b[0]
  {
    assert a[0] in multiset(b);
    SortedHeadIsLeast(b, a[0]);
    SortedHeadIsLeast(a, b[0]);
    LexLeAntisymmetric(a[0], b[0]);
  }

  /** A sorted arrangement of given elements is unique, whatever algorithm produced it. */
  lemma {:induction false} SortedUnique(a: seq<string>, b: seq<string>)
    requires Sorted(a) && Sorted(b)
    requires multiset(a) == multiset(b)
    ensures a == b
    decreases |a|
  {
    if |a| == 0 {
      assert |multiset(b)| == 0;
    } else {
      SortedHeads(a, b);
      SortedTail(a);
      SortedTail(b);
      SortedUnique(a[1..], b[1..]);
      assert a == [a[0]] + a[1..] && b == [b[0]] + b[1..];
    }
  }
}

=== FILE: text.dfy ===
/**
 * Strings as the modelled JavaScript and Python code handles them: prefix
 * tests, decimal rendering of integers (template literals and f-strings) and
 * splitting on a separator character (`String.prototype.split`).
 */
module Text {

  predicate StartsWith(s: string, prefix: string) {
    |prefix| <= |s| && s[..|prefix|] == prefix
  }

  predicate IsDigit(c: char) {
    '0' <= c <= '9'
  }

  function DigitChar(d: nat): (c: char)
    requires d < 10
    ensures IsDigit(c)
  {
    (48 + d) as char
  }

  function DigitValue(c: char): (d: nat)
    requires IsDigit(c)
    ensures d < 10
  {
    (c as int) - 48
  }

  /** The decimal digits of `n`, without sign or leading zeros. */
  function NatToString(n: nat): (s: string)
    ensures |s| > 0
    ensures forall k :: 0 <= k < |s| ==> IsDigit(s[k])
  {
    if n < 10 then [DigitChar(n)] else NatToString(n / 10) + [DigitChar(n % 10)]
  }

  /** Reads a string of decimal digits back as a number. */
  function ParseDigits(s: string): nat
    requires forall k :: 0 <= k < |s| ==> IsDigit(s[k])
  {
    if |s| == 0 then 0 else ParseDigits(s[..|s| - 1]) * 10 + DigitValue(s[|s| - 1])
  }

  /** Decimal rendering loses nothing: parsing it gives the number back. */
  lemma {:induction false} ParseNatToString(n: nat)
    ensures ParseDigits(NatToString(n)) == n
  {
    var s := NatToString(n);
    if n >= 10 {
      ParseNatToString(n / 10);
      assert s[..|s| - 1] == NatToString(n / 10);
    } else {
      assert s[..0] == [];
    }
  }

  /** `String(i)` for an integer `i`: a minus sign before the digits of a negative number. */
  function IntToString(i: int): string {
    if i < 0 then "-" + NatToString(-i) else NatToString(i)
  }

  /** Distinct integers render as distinct strings. */
  lemma IntToStringInjective(a: int, b: int)
    ensures IntToString(a) == IntToString(b) ==> a == b
  {
    if IntToString(a) == IntToString(b) {
      assert IsDigit(NatToString(if a < 0 then -a else a)[0]);
      assert IsDigit(NatToString(if b < 0 then -b else b)[0]);
      assert IntToString(a)[0] == '-' <==> a < 0;
      assert IntToString(b)[0] == '-' <==> b < 0;
      if a < 0 && b < 0 {
        assert NatToString(-a) == IntToString(a)[1..];
        assert NatToString(-b) == IntToString(b)[1..];
        ParseNatToString(-a);
        ParseNatToString(-b);
      } else if a >= 0 && b >= 0 {
        ParseNatToString(a);
        ParseNatToString(b);
      }
    }
  }

  /** `s.split(sep)`: the pieces between separators, with empty pieces kept; `"".split(sep)` is `[""]`. */
  function Split(s: string, sep: char): (parts: seq<string>)
    ensures |parts| >= 1
    ensures forall k :: 0 <= k < |parts| ==> sep !in parts[k]
    decreases |s|
  {
    if |s| == 0 then [""]
    else
      var rest := Split(s[1..], sep);
      if s[0] == sep then [""] + rest
      else [[s[0]] + rest[0]] + rest[1..]
  }

  /** `parts.join(sep)`. */
  function Join(parts: seq<string>, sep: char): string
    requires |parts| >= 1
    decreases |parts|
  {
    if |parts| == 1 then parts[0] else parts[0] + [sep] + Join(parts[1..], sep)
  }

  /** Joining the pieces of a split restores the string. */
  lemma {:induction false} JoinSplit(s: string, sep: char)
    ensures Join(Split(s, sep), sep) == s
    decreases |s|
  {
    if |s| > 0 {
      JoinSplit(s[1..], sep);
      var rest := Split(s[1..], sep);
      if s[0] == sep {
        assert ([""] + rest)[1..] == rest;
      } else {
        var parts := [[s[0]] + rest[0]] + rest[1..];
        if |rest| > 1 {
          assert parts[1..] == rest[1..];
        }
      }
    }
  }

  /** Splitting a string whose first piece is `a` (no separator in it). */
  lemma {:induction false} SplitPrefixed(a: string, t: string, sep: char)
    requires sep !in a
    ensures Split(a + t, sep) == [a + Split(t, sep)[0]] + Split(t, sep)[1..]
    decreases |a|
  {
    if |a| > 0 {
      var u := Split(t, sep);
      assert (a + t)[0] == a[0] && (a + t)[1..] == a[1..] + t;
      SplitPrefixed(a[1..], t, sep);
      var rest := Split(a[1..] + t, sep);
      assert rest[0] == a[1..] + u[0] && rest[1..] == u[1..];
      assert Split(a + t, sep) == [[a[0]] + rest[0]] + rest[1..];
      assert [a[0]] + (a[1..] + u[0]) == a + u[0];
    } else {
      var u := Split(t, sep);
      assert a + t == t;
      assert a + u[0] == u[0];
      assert [a + u[0]] + u[1..] == u;
    }
  }

  /** Splitting joined pieces that hold no separator gives the pieces back. */
  lemma {:induction false} SplitJoin(parts: seq<string>, sep: char)
    requires |parts| >= 1
    requires forall k :: 0 <= k < |parts| ==> sep !in parts[k]
    ensures Split(Join(parts, sep), sep) == parts
    decreases |parts|
  {
    if |parts| == 1 {
      SplitPrefixed(parts[0], "", sep);
      assert parts[0] + "" == parts[0];
    } else {
      var tail := Join(parts[1..], sep);
      SplitJoin(parts[1..], sep);
      assert ([sep] + tail)[1..] == tail;
      assert Split([sep] + tail, sep) == [""] + parts[1..];
      SplitPrefixed(parts[0], [sep] + tail, sep);
      assert parts[0] + "" == parts[0];
      assert parts[0] + [sep] + tail == parts[0] + ([sep] + tail);
      assert parts == [parts[0]] + parts[1..];
    }
  }
}

=== FILE: wrappers.dfy ===
/** Absent-or-present values and the outcomes of operations that can raise. */
module Wrappers {

  /** A value that may be missing: the model's stand-in for `null`, `undefined` and Python's `None`. */
  datatype Option<T> = None | Some(value: T)

  /** The outcome of an operation whose modelled code can raise an exception. */
  datatype Result<T, E> = Success(value: T) | Failure(error: E)
}
